=== FILE: README.md ===
# pgeo geometric text codec in Dafny

A model of the text codec of the Go package `pgeo`. The codec reads and writes PostgreSQL
geometric column values:

- a point `(lng,lat)`;
- a line `{A,B,C}`;
- a circle `<(lng,lat),radius>`.

It also includes the checks the JSON entry points make once a list of points has been decoded.

A number is `-?[0-9]+(\.[0-9]+)?`, with no exponent, no `+` and no whitespace, so the number
grammar and the anchored point and line decoders accept only part of what PostgreSQL writes. The
circle decoder is not anchored: it searches for point texts anywhere and splits the whole text
on `),`, so it tolerates surrounding text, for example `abc(1,2),>>5`. The model follows what the
code accepts.

Modules, one file each:

- `Wrappers`: `Option` and `Result`.
- `Text`: the parts of Go's `strings` package the codec uses: `Join`, `Split` and `Trim`.
- `Grammar`: the regular expressions, written as greedy recognisers. A number never contains
  `,`, `)` or `}`, so the longest number at a position is the only one a pattern can use. The
  greedy scan therefore decides exactly what the regular expression decides. `MatchTuple` is
  the anchored pattern `^...$`; `TuplePrefix` finds a tuple at the front of a text.
- `Geometry`: the value types, the errors, the sources a `Scan` receives (`Src`), and the pair
  (value held afterwards, error) that a `Scan` or an `Unmarshal` leaves (`Outcome`).
- `General`: `iToS`, `parseNums`, `formatPoint(s)`, `parsePoint`, `parsePoints` and
  `parsePointsSrc`. `FindPoints` models `FindAllString` of the unanchored point pattern as a
  recursive scan from left to right.
- `Transport`: the checks in `UnmarshalBox`, `UnmarshalPath`, `UnmarshalPolygon` and
  `UnmarshalLseg`, applied to the result of decoding the points.
- `Points`, `Lines`, `Circles`: `valuePoint`/`scanPoint`, `valueLine`/`scanLine` and
  `valueCircle`/`scanCircle`.

The coordinates are `float64` in the program. Here the number type is a type parameter `N`.
The two float conversions (`strconv.ParseFloat` and `%v` formatting) are supplied as a
`NumCodec(zero, parse, format)`. The round-trip results assume the token hypothesis
`Canonical`: the formatted text of a number is a token of the grammar, and parsing it gives the
number back.

A `Scan` is a function from the value the receiver held and the source to an `Outcome`. That
makes "the receiver is left unchanged" a plain equation. `scanPoint` assigns the result of
`parsePoint` before it looks at the error, so a text that is not a point overwrites the
receiver with the zero point. `scanLine` and `scanCircle` leave the receiver as it was on every
error.

## Model

| member | source | states |
|---|---|---|
| General.SourceText | general.go:15-29 | A string is its own text. A byte slice becomes the text with the same characters, one for one. Any other kind, `nil` included, is an "incompatible type" error naming the kind. |
| General.BytesText | general.go:22-23 | `string(bytes)` has the length of the slice and the same character code at every position. |
| General.ParseNums | general.go:31-43 | Succeeds exactly when every token parses, with one number per token in order. Otherwise the error is that of the first token that fails, and every token before it parses. |
| General.ParseTwo | general.go:66-69 | On two tokens, `parseNums` gives both numbers, or the error of the first of the two that fails. |
| General.ParseThree | line.go:47-50 | On three tokens, `parseNums` gives the three numbers in order, or the error of the first that fails. |
| General.FormatPoint | general.go:45-47 | `(lng,lat)`, longitude first, framed by parentheses. When both numbers are written as tokens, the anchored point pattern accepts the text. |
| General.PointTexts | general.go:50-53 | One text per point, in list order: the text at each position is `formatPoint` of the point at that position. |
| General.FormatPoints | general.go:49-55 | No points give the empty text. Any other list gives a text that opens with `(` and closes with `)`. |
| General.FormatPointsCons | general.go:49-55 | No points give the empty text. Otherwise the first point's text comes first, and a comma separates it from the text of the rest, in list order. |
| General.MatchPointIff | general.go:61-64 | The anchored point pattern matches exactly the texts `(x,y)` with number tokens `x` and `y`. Its two groups are `x` and `y`, in that order. |
| General.PointTextShape | general.go:61 | Every point text starts with `(`, ends with `)`, holds exactly one comma and has only number characters in between. |
| General.NotPointTextChar | general.go:61 | A character between the parentheses that is neither a number character nor a comma means the text is not a point. |
| General.NotPointTextFrame | general.go:61 | A text without exactly one comma, or without its parentheses, is not a point. |
| General.ParsePoint | general.go:57-75 | "wrong point" exactly when the whole text is not `(num,num)`. For `(x,y)`, the first number is the longitude and the second the latitude. If a number does not parse, its error is returned, the first number's error coming first. |
| General.PointRoundTrip | general.go:45-75 | Parsing the text `formatPoint` writes gives the point back. The longitude is written first and read first. |
| General.FindPoints | general.go:80 | The unanchored search. Matches never overlap and each takes at least five characters, so a text of length `n` holds at most `n / 5` of them. |
| General.PointAtSound | general.go:80 | A match of the unanchored pattern at the front of a text is a point text of two number tokens, and it is a prefix of the text. |
| General.PointAtOf | general.go:80 | Wherever a point text starts, the unanchored pattern matches there with exactly its two numbers. |
| General.PointAtStart | general.go:80 | A match starts with `(` followed by a number character. |
| General.FindPointsSound | general.go:80-82 | Every text the unanchored search returns is accepted by the anchored point pattern. |
| General.FindPointsEmpty | general.go:80 | The search finds nothing exactly when no position of the text starts a point text. |
| General.FindPointsLeftmost | general.go:80 | Leftmost first: the first text found is the match at the first position where one starts. The search then continues after the end of that match, so matches never overlap. |
| General.FindPointsNone | general.go:80 | A text without `(` holds no point. |
| General.FindPointsSkip | general.go:80 | Leading text without number characters is skipped when what follows does not start with a number character. |
| General.FindPointsTokens | general.go:80 | A point text at the front is taken whole, and the search continues in what follows it. |
| General.FindPointsFormatted | general.go:49-55 | Searching the text of a list of canonical points finds each point's text in order, then continues in whatever follows. |
| General.Collect | general.go:81-90 | The loop that returns at its first error: success exactly when every result succeeds, with the values in order. Otherwise the error is that of the first failing result, and every result before it succeeds. |
| General.ParseEach | general.go:81-90 | Succeeds exactly when every found text parses. Then each text gives the point at the same position. Otherwise the error is that of the FIRST text that fails, and every text before it parses. |
| General.ParseEachError | general.go:81-85 | When every text is a point text, the only possible error is a number's error. |
| General.ParsePoints | general.go:77-91 | Succeeds exactly when every text the search finds parses, with one point per text, in order. Otherwise the error is that of the first found text that fails, and it is always a number's error, never "wrong point". No match gives the empty list with no error. |
| General.ParsePointsOne | general.go:77-91 | A text in which exactly one point text is found gives exactly that point. |
| General.ParsePointsSrc | general.go:93-100 | The source's error, or the points of the source's text. |
| General.ParseEachTexts | general.go:45-91 | Parsing the texts of canonical points gives the points back. |
| General.ParsePointsFramed | general.go:49-91 | Round trip of `formatPoints` through `parsePoints`. The points come back even when the list is framed by text without number characters before it and without `(` after it. |
| Grammar.IsNumToken | general.go:61 | The number grammar `-?[0-9]+(\.[0-9]+)?`: an optional `-`, digits, and optionally a `.` followed by digits. |
| Grammar.TokenShape | general.go:61 | A number token is non-empty and has only number characters. It starts with a digit or `-` and ends with a digit. |
| Grammar.DigitRunSpec | general.go:61 | The greedy digit run holds only digits and stops at the first character that is not a digit. |
| Grammar.UnsignedPrefixSound | general.go:61 | The greedy unsigned-number prefix is in `[0-9]+(\.[0-9]+)?`. |
| Grammar.NumPrefixSound | general.go:61 | The greedy number prefix is a token of `-?[0-9]+(\.[0-9]+)?`. |
| Grammar.NumPrefixOf | general.go:61 | The greedy number scan stops exactly at the end of a token that is followed by a character that cannot extend it. |
| Grammar.FieldsSound | general.go:61 | The comma-separated numbers found at the front of a text are tokens, and their comma-join is a prefix of the text. |
| Grammar.FieldsOf | general.go:61 | Any list of tokens is recovered from its comma-joined text, whatever follows that text, as long as it does not start with a number character. |
| Grammar.TuplePrefixSound | general.go:80 | A tuple found at the front of a text consists of tokens, and its text is a prefix of the text. |
| Grammar.TuplePrefixOf | general.go:80 | A tuple of tokens is found at the front of any text that starts with it. |
| Grammar.MatchTupleSound | line.go:10 | An anchored tuple match consists of tokens, and their tuple text is the whole input. |
| Grammar.MatchTupleOf | line.go:10 | The anchored tuple match accepts every tuple text of tokens and returns its numbers. |
| Text.Join | general.go:54 | `strings.Join`: the elements with the separator between neighbours; no elements give the empty text. |
| Text.Split | circle.go:45 | `strings.Split` for a non-empty separator: at least one piece. The pieces joined by the separator are the text, and no piece contains the separator. |
| Text.SplitOnce | circle.go:45 | When the separator's first character occurs on neither side of its one occurrence, the split gives exactly the two sides. |
| Text.Trim | circle.go:51 | `strings.Trim` with cut set `>` removes a run at each end of the text, and what remains neither starts nor ends with the cut character. |
| Text.TrimRuns | circle.go:51 | `strings.Trim` removes whole runs of the cut character at both ends, not just one character. |
| Transport.UnmarshalBox | general.go:152-161 | A decoder error is passed on with the zero box. Anything other than exactly two points gives "wrong box" with the zero box. Otherwise the two points, in order. |
| Transport.UnmarshalPath | general.go:163-172 | A decoder error is passed on with the zero path. Fewer than two points give "wrong path". Otherwise all points are kept, and the path is closed exactly when its first and last points are equal. |
| Transport.UnmarshalPolygon | general.go:174-183 | A decoder error is passed on. Fewer than three points give "wrong polygon". Otherwise all points are kept. |
| Transport.UnmarshalLseg | general.go:191-200 | A decoder error is passed on with the zero segment. Anything other than exactly two points gives "wrong lseg". Otherwise the two points, in order. |
| Transport.ClosedPathExamples | general.go:171 | `[(0,0),(1,1),(0,0)]` gives a closed path and `[(0,0),(1,1),(2,2)]` an open one. |
| Transport.CardinalityExamples | general.go:152-200 | One point is neither a box nor a path. Two points are not a polygon. Three points are not a segment. |
| Points.ScanPoint | point.go:26-44 | `nil` gives the zero point. A source of another type leaves the receiver unchanged, with "incompatible type". "wrong point" exactly when the text is not `(num,num)`. Any error from the text, "wrong point" or a number's error, overwrites the receiver with the zero point. For a point text `(x,y)` the error is that of `x` if it does not parse, else that of `y`. When both parse the receiver holds (lat = y, lng = x). |
| Points.ValuePoint | point.go:22-24 | The text of `formatPoint`. When both numbers are written as tokens, `scanPoint` accepts it as a point text. |
| Points.ScanValuePoint | point.go:22-44 | Scanning `valuePoint(p)` gives `p` back, whatever the receiver held. |
| Points.ScanPointBytes | point.go:32-35 | A byte slice scans exactly like the string with the same characters. |
| Points.ScanPointWrong | point.go:37-40 | A text that is not a point gives "wrong point" and the zero point in the receiver. |
| Points.NotPointTexts | point.go:37 | `(1,2,3)`, `( 1,2)` and `(1e3,2)` are not point texts. |
| Lines.MatchLineIff | line.go:10 | The anchored line pattern matches exactly the texts `{a,b,c}` of three tokens. Its groups are `a`, `b` and `c`, in order. |
| Lines.LineTextShape | line.go:10 | Every line text is framed by braces, has exactly two commas and has only number characters in between. |
| Lines.NotLineText | line.go:42-45 | A text the anchored line pattern turns away is not a line text. |
| Lines.ValueLine | line.go:27-29 | `{A,B,C}`. When the three numbers are written as tokens, the anchored line pattern accepts it. |
| Lines.ScanLine | line.go:31-55 | `nil` gives the zero line. Another kind gives "incompatible type". "wrong line" exactly when the text is not `{num,num,num}`. Otherwise the coefficients are A, B and C in order, or the error of the first number that fails. On every error the receiver is unchanged. |
| Lines.ScanValueLine | line.go:27-55 | Scanning `valueLine(l)` gives `l` back, whatever the receiver held. |
| Lines.ScanLineBytes | line.go:37-40 | A byte slice scans exactly like the string with the same characters. |
| Lines.ScanLineWrong | line.go:42-45 | A text that is not a line gives "wrong line" and leaves the receiver unchanged. |
| Lines.NotLineTexts | line.go:10 | `{1,2,3` (missing brace) and `{1,2,3,4}` (fourth number) are not line texts. |
| Lines.NotLineTextsChars | line.go:10 | `{1, 2,3}` (space) and `{1e3,2,3}` (exponent) are not line texts. |
| Circles.ValueCircle | circle.go:25-27 | `<(lng,lat),radius>`: the text always opens with `<(` and closes with `>`. When the three numbers are written as tokens, the search finds exactly the center's point text, and the split on `),` gives exactly `<(lng,lat` and `radius>`, so the whole text is fixed. |
| Circles.ScanCircle | circle.go:29-58 | `nil` gives center (0,0) and radius 0. Another kind gives "incompatible type". A number error in a point comes first. "wrong circle" exactly when there is not exactly one point, or not exactly two pieces around `),`. Otherwise the radius comes from the second piece trimmed of `>`, and a radius that does not parse gives that number's error. On every error the receiver is unchanged. |
| Circles.CircleTextPoint | circle.go:40 | In `g(x,y),rp`, with no number character in `g` and no `(` in `rp`, exactly the one point `(x,y)` is found. |
| Circles.CircleTextPieces | circle.go:45 | With no `)` in `g` or `rp`, `g(x,y),rp` splits on `),` into exactly `g(x,y` and `rp`. |
| Circles.ScanCircleFound | circle.go:45-56 | One point found and two pieces give that point as the center. The radius is the trimmed second piece, or that piece's number error. |
| Circles.ScanCircleText | circle.go:40-56 | Decoding `g(x,y),rp` gives center (lat = y, lng = x) and the radius `rp` trimmed of `>`, or leaves the receiver with the radius error. |
| Circles.RadiusPiece | circle.go:51 | The radius piece `t>` of a circle's value has no parenthesis and trims back to `t`. |
| Circles.ScanValueCircle | circle.go:25-56 | Scanning `valueCircle(c)` gives `c` back, center and radius, whatever the receiver held. |
| Circles.ScanCircleBytes | circle.go:35-38 | A byte slice scans exactly like the string with the same characters. |
| Circles.TrimTwoArrows | circle.go:51 | `strings.Trim(">>5>>", ">")` is `5`. |
| Circles.ScanCircleExample | circle.go:56 | `<(0,0),5>` is the circle with center (0,0) and radius 5. |
| Circles.ScanCircleTwoPoints | circle.go:40-49 | Two point texts after a prefix without number characters, as in `<(0,0)(1,1),5>`, give "wrong circle" with the receiver unchanged, even when both points parse. |
| Circles.ScanCircleTrimmed | circle.go:51-56 | `<(0,0),>>5>>` is the same circle: every `>` at either end of the radius is removed. |

## Left out

- Float conversion. `strconv.ParseFloat` and `%v` formatting of `float64` are the `parse` and
  `format` parameters of `NumCodec`. Their behaviour is not modelled: shortest round-trip
  output, exponents, range errors, and NaN or negative-zero equality. Round trips are stated
  under the `Canonical` hypothesis.
- JSON decoding. `json.Unmarshal` is a library call. `UnmarshalPoint`, `UnmarshalPoints`,
  `UnmarshalCircle` and `UnmarshalLine` only wrap it and are not modelled. The `Unmarshal*`
  checks take the decoder's result (the points, or its error) as input.
- Transport.UnmarshalPath: the closed flag compares points with the equality of `N`. Go compares
  `float64` values, so a NaN coordinate makes a path open and `-0` equals `0`. That detail
  belongs to the number type.
- The random coordinate generators (`newRandNum`, `randLng`, `randLat`, `randCoor`,
  `randNegPos`) depend on the clock and a global random source.
- The `Value` and `Scan` methods are one-line delegates to `value*` and `scan*`, which are
  modelled. `driver.Value` is the returned text.
- General.SourceText: the text of the error names the kind as `reflect` prints it. The model
  carries the kind as a string in `IncompatibleType`, and `nil` is named `invalid`.
- `NewPoint`, `NewLine` and `NewCircle`, and the Box, Path, Polygon and Lseg types, are not part
  of this model. They are taken to be plain field-wise constructors, and the text `Scan`/`Value`
  of Box, Path, Polygon and Lseg is left out.
- General.ParseNums: on an error Go also returns the numbers parsed so far. Every caller
  discards them, so the model returns only the error.
- General.ParsePoints: on a number error Go also returns the points parsed before the failing
  text. The model returns only the error. `scanCircle` discards those points on an error.
- General.ParsePointsSrc: passes on what `parsePoints` returns, so on a number error the
  points parsed before it are dropped here too. No caller of `parsePointsSrc` is part of this
  model.
- General.BytesText: a byte becomes the character with the same code. Go's `string(bytes)`
  keeps the bytes as they are, which is the same text as long as both sides are read byte by
  byte.
- The comment on `Line` says A and B are not both zero. `scanLine` does not check this, and
  neither does the model.

=== FILE: circles.dfy ===
/** The text codec of a circle: `valueCircle` and `scanCircle`.

    Decoding does not use an anchored pattern. It looks for point-shaped texts anywhere (there
    must be exactly one), splits the whole text on `),` (there must be exactly two pieces),
    and reads the radius from the second piece once every `>` at either end is removed. */
module Circles {
  import opened Wrappers
  import opened Text
  import opened Grammar
  import opened Geometry
  import opened General

  /** `valueCircle`: `<(lng,lat),radius>`; formatting cannot fail, so no error is modelled.
      The text always opens with `<(` and closes with `>`. When the three numbers are written
      as tokens, the search for point texts finds exactly the center's, and the split on `),`
      gives exactly `<(lng,lat` and `radius>`, which rejoin to the whole text: the facts
      `scanCircle` relies on. */
  function ValueCircle<N>(nc: NumCodec<N>, c: Circle<N>): (r: string)
    ensures |r| >= 6 && r[0] == '<' && r[1] == '(' && r[|r| - 1] == '>'
    ensures
      IsNumToken(nc.format(c.center.lng)) && IsNumToken(nc.format(c.center.lat)) &&
      IsNumToken(nc.format(c.radius))
      ==>
      FindPoints(r) == [FormatPoint(nc, c.center)] &&
      Split(r, "),") ==
        ["<" + "(" + nc.format(c.center.lng) + "," + nc.format(c.center.lat),
         nc.format(c.radius) + ">"]
  {
    var x, y, t := nc.format(c.center.lng), nc.format(c.center.lat), nc.format(c.radius);
    var r := "<" + (FormatPoint(nc, c.center) + ("," + (t + ">")));
    if IsNumToken(x) && IsNumToken(y) && IsNumToken(t) then
      CircleValueText(x, y, t);
      r
    else r
  }

  /** The radius text of a circle text: the second piece of the split on `),` with every
      leading and trailing `>` removed. */
  function RadiusText(pieces: seq<string>): string
    requires |pieces| == 2
  {
    Trim(pieces[1], '>')
  }

  /** `scanCircle`: what the receiver holds after scanning `src`, and the error.
      `nil` gives the circle with center (0,0) and radius 0. On every error the receiver keeps
      its value. A number of a point that does not parse is reported first; then "wrong
      circle" unless there is exactly one point and exactly two pieces around `),`; then the
      error of a radius that does not parse. */
  function ScanCircle<N(==)>(nc: NumCodec<N>, prev: Circle<N>, src: Src): (r: Outcome<Circle<N>>)
    ensures src.Nil? ==> r == Outcome(Circle(ZeroPoint(nc.zero), nc.zero), None)
    ensures src.Other? ==> r == Outcome(prev, Some(IncompatibleType(src.kind)))
    ensures r.err.Some? ==> r.value == prev
    ensures !src.Nil? && SourceText(src).Success? ==>
      var s := SourceText(src).value;
      (ParsePoints(nc, s).Failure? ==> r.err == Some(ParsePoints(nc, s).error)) &&
      (ParsePoints(nc, s).Success? ==>
        (r.err == Some(WrongCircle) <==> |FindPoints(s)| != 1 || |Split(s, "),")| != 2))
    ensures !src.Nil? && SourceText(src).Success? ==>
      var s := SourceText(src).value;
      var pieces := Split(s, "),");
      ParsePoints(nc, s).Success? && |FindPoints(s)| == 1 && |pieces| == 2 ==>
        (nc.parse(RadiusText(pieces)).Success? ==> r.err.None?) &&
        (nc.parse(RadiusText(pieces)).Failure? ==>
          r.err == Some(BadNumber(nc.parse(RadiusText(pieces)).error)))
    ensures !src.Nil? && SourceText(src).Success? && r.err.None? ==>
      var s := SourceText(src).value;
      var found := FindPoints(s);
      var pieces := Split(s, "),");
      |found| == 1 && ParsePoint(nc, found[0]) == Success(r.value.center) &&
      |pieces| == 2 && nc.parse(RadiusText(pieces)) == Success(r.value.radius)
  {
    if src.Nil? then Outcome(Circle(ZeroPoint(nc.zero), nc.zero), None)
    else
      match SourceText(src)
      case Failure(e) => Outcome(prev, Some(e))
      case Success(s) =>
        match ParsePoints(nc, s)
        case Failure(e) => Outcome(prev, Some(e))
        case Success(points) =>
          var pieces := Split(s, "),");
          if |points| != 1 || |pieces| != 2 then Outcome(prev, Some(WrongCircle))
          else
            match nc.parse(RadiusText(pieces))
            case Failure(m) => Outcome(prev, Some(BadNumber(m)))
            case Success(radius) => Outcome(Circle(points[0], radius), None)
  }

  /** The text `g(x,y),rp`: whatever comes before the point, the point, a comma, and the
      radius piece. */
  function CircleText(g: string, x: string, y: string, rp: string): string
  {
    g + (PointText(x, y) + ("," + rp))
  }

  /** The text `g(x,y),rp`, with `g` free of number characters and `rp` free of `(`, holds
      exactly one point. */
  lemma CircleTextPoint(g: string, x: string, y: string, rp: string)
    requires IsNumToken(x) && IsNumToken(y)
    requires forall i :: 0 <= i < |g| ==> !IsNumChar(g[i])
    requires '(' !in rp
    ensures FindPoints(CircleText(g, x, y, rp)) == [PointText(x, y)]
  {
    var m := PointText(x, y);
    var t := m + ("," + rp);
    OnePointAfter(x, y, "," + rp);
    FindPointsSkip(g, t);
  }

  lemma OnePointAfter(x: string, y: string, h: string)
    requires IsNumToken(x) && IsNumToken(y) && '(' !in h
    ensures var m := PointText(x, y);
      FindPoints(m + h) == [m] && (m + h)[0] == '('
  {
    FindPointsTokens(x, y, h);
    FindPointsNone(h);
  }

  /** The same text, with `g` and `rp` free of `)`, splits on `),` into exactly two pieces,
      the second being `rp`. */
  lemma CircleTextPieces(g: string, x: string, y: string, rp: string)
    requires IsNumToken(x) && IsNumToken(y)
    requires ')' !in g && ')' !in rp
    ensures Split(CircleText(g, x, y, rp), "),") == [g + "(" + x + "," + y, rp]
  {
    TokenShape(x);
    TokenShape(y);
    var a := g + "(" + x + "," + y;
    assert ')' !in a by {
      forall i | 0 <= i < |a|
        ensures a[i] != ')'
      {
        if i < |g| {
          assert a[i] == g[i];
        } else if i == |g| {
        } else if i <= |g| + |x| {
          assert a[i] == x[i - |g| - 1];
        } else if i > |g| + |x| + 1 {
          assert a[i] == y[i - |g| - |x| - 2];
        }
      }
    }
    assert CircleText(g, x, y, rp) == a + ")," + rp;
    SplitOnce(a, "),", rp);
  }

  /** Decoding `g(x,y),rp`: the center comes from `x` and `y`, the radius from `rp` once its
      `>` are trimmed, and a radius that does not parse leaves the receiver with its error. */
  lemma ScanCircleText<N>(nc: NumCodec<N>, prev: Circle<N>, g: string, x: string, y: string, rp: string)
    requires IsNumToken(x) && IsNumToken(y)
    requires nc.parse(x).Success? && nc.parse(y).Success?
    requires forall i :: 0 <= i < |g| ==> !IsNumChar(g[i])
    requires ')' !in g && '(' !in rp && ')' !in rp
    ensures ScanCircle(nc, prev, Str(CircleText(g, x, y, rp))) ==
      match nc.parse(Trim(rp, '>'))
      case Failure(m) => Outcome(prev, Some(BadNumber(m)))
      case Success(radius) => Outcome(Circle(Point(nc.parse(y).value, nc.parse(x).value), radius), None)
  {
    var s := CircleText(g, x, y, rp);
    var m := PointText(x, y);
    CircleTextPoint(g, x, y, rp);
    CircleTextPieces(g, x, y, rp);
    ParsePointsOne(nc, s, m, x, y);
    ScanCircleFound(nc, prev, s, Point(nc.parse(y).value, nc.parse(x).value), rp);
  }

  /** Decoding a text with exactly one point, which parses to `p`, and exactly two pieces around
      `),`, the second being `rp`. */
  lemma ScanCircleFound<N>(nc: NumCodec<N>, prev: Circle<N>, s: string, p: Point<N>, rp: string)
    requires ParsePoints(nc, s) == Success([p])
    requires |Split(s, "),")| == 2 && Split(s, "),")[1] == rp
    ensures ScanCircle(nc, prev, Str(s)) ==
      match nc.parse(Trim(rp, '>'))
      case Failure(m) => Outcome(prev, Some(BadNumber(m)))
      case Success(radius) => Outcome(Circle(p, radius), None)
  {
    assert RadiusText(Split(s, "),")) == Trim(rp, '>');
  }

  /** The radius piece of a circle's value, `t>`, holds no parenthesis and trims to `t`. */
  lemma RadiusPiece(t: string)
    requires IsNumToken(t)
    ensures '(' !in t + ">" && ')' !in t + ">"
    ensures Trim(t + ">", '>') == t
  {
    assert '(' !in t + ">" && ')' !in t + ">" by {
      TokenShape(t);
      forall i | 0 <= i < |t| + 1
        ensures (t + ">")[i] != '(' && (t + ">")[i] != ')'
      {
        if i < |t| {
          assert (t + ">")[i] == t[i];
        }
      }
    }
    assert |t| > 0 && t[0] != '>' && t[|t| - 1] != '>' by {
      TokenShape(t);
    }
    assert Repeat('>', 0) + t + Repeat('>', 1) == t + ">" by {
      Arrows();
    }
    TrimRuns('>', 0, t, 1);
  }

  /** The text of a circle whose numbers `x`, `y` and `t` are tokens holds exactly the one point
      `(x,y)` and splits on `),` into two pieces, the second being `t>`. */
  lemma CircleValueText(x: string, y: string, t: string)
    requires IsNumToken(x) && IsNumToken(y) && IsNumToken(t)
    ensures var s := CircleText("<", x, y, t + ">");
      FindPoints(s) == [PointText(x, y)] && Split(s, "),") == ["<" + "(" + x + "," + y, t + ">"]
  {
    RadiusPiece(t);
    assert forall i :: 0 <= i < |"<"| ==> !IsNumChar("<"[i]);
    assert ')' !in "<";
    CircleTextPoint("<", x, y, t + ">");
    CircleTextPieces("<", x, y, t + ">");
  }

  /** Scanning the value of a circle gives the circle back, whatever the receiver held. */
  lemma ScanValueCircle<N>(nc: NumCodec<N>, prev: Circle<N>, c: Circle<N>)
    requires CanonicalPoint(nc, c.center) && Canonical(nc, c.radius)
    ensures ScanCircle(nc, prev, Str(ValueCircle(nc, c))) == Outcome(c, None)
  {
    var x, y, t := nc.format(c.center.lng), nc.format(c.center.lat), nc.format(c.radius);
    var s := ValueCircle(nc, c);
    ParsePointsOne(nc, s, FormatPoint(nc, c.center), x, y);
    RadiusPiece(t);
    ScanCircleFound(nc, prev, s, c.center, t + ">");
  }

  /** A byte slice scans exactly like the string with the same characters. */
  lemma ScanCircleBytes<N>(nc: NumCodec<N>, prev: Circle<N>, bs: seq<Byte>)
    ensures ScanCircle(nc, prev, Bytes(bs)) == ScanCircle(nc, prev, Str(BytesText(bs)))
  {
  }

  lemma ZeroOneTokens()
    ensures IsNumToken("0") && IsNumToken("1")
  {
    assert AllDigits("0");
    assert AllDigits("1");
  }

  lemma ExampleText()
    ensures "<(0,0),5>" == CircleText("<", "0", "0", "5>")
  {
    assert PointText("0", "0") == "(0,0)";
  }

  lemma TrimmedText()
    ensures "<(0,0),>>5>>" == CircleText("<", "0", "0", ">>5>>")
  {
    assert PointText("0", "0") == "(0,0)";
  }

  lemma Arrows()
    ensures Repeat('>', 0) == [] && Repeat('>', 1) == ">" && Repeat('>', 2) == ">>"
  {
    assert Repeat('>', 1) == ['>'] + Repeat('>', 0);
    assert Repeat('>', 2) == ['>'] + Repeat('>', 1);
  }

  lemma TrimOneArrow()
    ensures Trim("5>", '>') == "5"
  {
    assert "5>" == Repeat('>', 0) + "5" + Repeat('>', 1) by {
      Arrows();
    }
    TrimRuns('>', 0, "5", 1);
  }

  lemma TrimTwoArrows()
    ensures Trim(">>5>>", '>') == "5"
  {
    assert ">>5>>" == Repeat('>', 2) + "5" + Repeat('>', 2) by {
      Arrows();
    }
    TrimRuns('>', 2, "5", 2);
  }

  /** `<(0,0),5>` is the circle with center (0,0) and radius 5. */
  lemma ScanCircleExample<N>(nc: NumCodec<N>, prev: Circle<N>, zero: N, five: N)
    requires nc.parse("0") == Success(zero) && nc.parse("5") == Success(five)
    ensures ScanCircle(nc, prev, Str("<(0,0),5>")) == Outcome(Circle(Point(zero, zero), five), None)
  {
    assert IsNumToken("0") by {
      ZeroOneTokens();
    }
    assert ')' !in "<" && '(' !in "5>" && ')' !in "5>";
    assert forall i :: 0 <= i < |"<"| ==> !IsNumChar("<"[i]);
    TrimOneArrow();
    ExampleText();
    ScanCircleText(nc, prev, "<", "0", "0", "5>");
  }

  /** Two point texts after a prefix without number characters, as in `<(0,0)(1,1),5>`, are
      no circle: "wrong circle", with the receiver unchanged, even though both points parse. */
  lemma ScanCircleTwoPoints<N>(nc: NumCodec<N>, prev: Circle<N>, g: string, x1: string, y1: string,
                               x2: string, y2: string, h: string)
    requires IsNumToken(x1) && IsNumToken(y1) && IsNumToken(x2) && IsNumToken(y2)
    requires nc.parse(x1).Success? && nc.parse(y1).Success?
    requires nc.parse(x2).Success? && nc.parse(y2).Success?
    requires forall i :: 0 <= i < |g| ==> !IsNumChar(g[i])
    requires '(' !in h
    ensures ScanCircle(nc, prev, Str(g + (PointText(x1, y1) + (PointText(x2, y2) + h))))
      == Outcome(prev, Some(WrongCircle))
  {
    var m1, m2 := PointText(x1, y1), PointText(x2, y2);
    var s := g + (m1 + (m2 + h));
    OnePointAfter(x2, y2, h);
    FindPointsTokens(x1, y1, m2 + h);
    assert (m1 + (m2 + h))[0] == '(';
    FindPointsSkip(g, m1 + (m2 + h));
    assert FindPoints(s) == [m1, m2];
    assert ParsePoint(nc, m1).Success? by {
      assert PointTokens(m1, x1, y1);
    }
    assert ParsePoint(nc, m2).Success? by {
      assert PointTokens(m2, x2, y2);
    }
    assert ParsePoints(nc, s).Success?;
  }

  /** `<(0,0),>>5>>` is the same circle: every `>` at either end of the radius is trimmed. */
  lemma ScanCircleTrimmed<N>(nc: NumCodec<N>, prev: Circle<N>, zero: N, five: N)
    requires nc.parse("0") == Success(zero) && nc.parse("5") == Success(five)
    ensures ScanCircle(nc, prev, Str("<(0,0),>>5>>")) == Outcome(Circle(Point(zero, zero), five), None)
  {
    assert IsNumToken("0") by {
      ZeroOneTokens();
    }
    assert ')' !in "<" && '(' !in ">>5>>" && ')' !in ">>5>>";
    assert forall i :: 0 <= i < |"<"| ==> !IsNumChar("<"[i]);
    TrimTwoArrows();
    TrimmedText();
    ScanCircleText(nc, prev, "<", "0", "0", ">>5>>");
  }
}

=== FILE: general.dfy ===
/** The shared helpers of the text codec: turning a driver source into text, parsing lists of
    number tokens, formatting points, and recognising one point (anchored) or every point in a
    text (unanchored, left to right). */
module General {
  import opened Wrappers
  import opened Text
  import opened Grammar
  import opened Geometry

  /** `string(bytes)`: the text whose characters are the bytes, one for one. */
  function BytesText(bs: seq<Byte>): (s: string)
    ensures |s| == |bs|
    ensures forall i :: 0 <= i < |bs| ==> s[i] as int == bs[i] as int
  {
    seq(|bs|, i requires 0 <= i < |bs| => bs[i] as int as char)
  }

  /** `iToS`: the text of a source. A string is its own text and a byte slice is read as
      text; anything else, `nil` included, is an incompatible type named by its kind
      (`nil` has the reflected kind `invalid`). */
  function SourceText(src: Src): (r: Result<string, Error>)
    ensures src.Str? ==> r == Success(src.text)
    ensures src.Bytes? ==>
      r.Success? && |r.value| == |src.bytes| &&
      (forall i :: 0 <= i < |src.bytes| ==> r.value[i] as int == src.bytes[i] as int)
    ensures src.Other? ==> r == Failure(IncompatibleType(src.kind))
    ensures src.Nil? ==> r.Failure? && r.error.IncompatibleType?
  {
    match src
    case Str(s) => Success(s)
    case Bytes(bs) => Success(BytesText(bs))
    case Nil => Failure(IncompatibleType("invalid"))
    case Other(kind) => Failure(IncompatibleType(kind))
  }

  /** `parseNums`: one number per token, in order, or the error of the first token that does
      not parse. */
  function ParseNums<N(==)>(nc: NumCodec<N>, ts: seq<string>): (r: Result<seq<N>, Error>)
    ensures r.Success? <==> forall k :: 0 <= k < |ts| ==> nc.parse(ts[k]).Success?
    ensures r.Success? ==>
      |r.value| == |ts| &&
      (forall k :: 0 <= k < |ts| ==> nc.parse(ts[k]) == Success(r.value[k]))
    ensures r.Failure? ==>
      (exists k :: 0 <= k < |ts| && nc.parse(ts[k]).Failure? &&
        r.error == BadNumber(nc.parse(ts[k]).error) &&
        (forall j :: 0 <= j < k ==> nc.parse(ts[j]).Success?))
    decreases |ts|
  {
    if |ts| == 0 then Success([])
    else
      match nc.parse(ts[0])
      case Failure(m) => Failure(BadNumber(m))
      case Success(v) =>
        match ParseNums(nc, ts[1..])
        case Failure(e) =>
          var k :| 0 <= k < |ts| - 1 && nc.parse(ts[1..][k]).Failure?
            && e == BadNumber(nc.parse(ts[1..][k]).error)
            && forall j :: 0 <= j < k ==> nc.parse(ts[1..][j]).Success?;
          assert ts[k + 1] == ts[1..][k];
          assert forall j :: 1 <= j < k + 1 ==> ts[j] == ts[1..][j - 1];
          Failure(e)
        case Success(vs) =>
          assert forall k :: 1 <= k < |ts| ==> ts[k] == ts[1..][k - 1];
          Success([v] + vs)
  }

  /** Two tokens: the numbers of both, or the error of the first that does not parse. */
  lemma ParseTwo<N>(nc: NumCodec<N>, ts: seq<string>)
    requires |ts| == 2
    ensures ParseNums(nc, ts) ==
      if nc.parse(ts[0]).Failure? then Failure(BadNumber(nc.parse(ts[0]).error))
      else if nc.parse(ts[1]).Failure? then Failure(BadNumber(nc.parse(ts[1]).error))
      else Success([nc.parse(ts[0]).value, nc.parse(ts[1]).value])
  {
    var r := ParseNums(nc, ts);
    if r.Success? {
      assert r.value == [r.value[0], r.value[1]];
    }
  }

  /** Three tokens: the numbers of all three, or the error of the first that does not parse. */
  lemma ParseThree<N>(nc: NumCodec<N>, ts: seq<string>)
    requires |ts| == 3
    ensures ParseNums(nc, ts) ==
      if nc.parse(ts[0]).Failure? then Failure(BadNumber(nc.parse(ts[0]).error))
      else if nc.parse(ts[1]).Failure? then Failure(BadNumber(nc.parse(ts[1]).error))
      else if nc.parse(ts[2]).Failure? then Failure(BadNumber(nc.parse(ts[2]).error))
      else Success([nc.parse(ts[0]).value, nc.parse(ts[1]).value, nc.parse(ts[2]).value])
  {
    var r := ParseNums(nc, ts);
    if r.Success? {
      assert r.value == [r.value[0], r.value[1], r.value[2]];
    }
  }

  /** `formatPoint`: `(lng,lat)`, longitude first. When both numbers are written as tokens of
      the number grammar, the anchored point pattern accepts the text. */
  function FormatPoint<N>(nc: NumCodec<N>, p: Point<N>): (s: string)
    ensures |s| >= 3 && s[0] == '(' && s[|s| - 1] == ')'
    ensures IsNumToken(nc.format(p.lng)) && IsNumToken(nc.format(p.lat)) ==> IsPointText(s)
  {
    assert IsNumToken(nc.format(p.lng)) && IsNumToken(nc.format(p.lat)) ==>
      PointTokens(PointText(nc.format(p.lng), nc.format(p.lat)), nc.format(p.lng), nc.format(p.lat));
    PointText(nc.format(p.lng), nc.format(p.lat))
  }

  /** The text of each point, in list order. */
  function PointTexts<N>(nc: NumCodec<N>, ps: seq<Point<N>>): (r: seq<string>)
    ensures |r| == |ps|
    ensures forall k :: 0 <= k < |ps| ==> r[k] == FormatPoint(nc, ps[k])
    decreases |ps|
  {
    if |ps| == 0 then []
    else
      assert forall k :: 1 <= k < |ps| ==> ps[k] == ps[1..][k - 1];
      [FormatPoint(nc, ps[0])] + PointTexts(nc, ps[1..])
  }

  /** `formatPoints`: the point texts joined by commas. No points give the empty text; any
      other list gives a text that opens with the `(` of its first point and closes with the
      `)` of its last. */
  function FormatPoints<N>(nc: NumCodec<N>, ps: seq<Point<N>>): (s: string)
    ensures |ps| == 0 ==> s == ""
    ensures |ps| > 0 ==> |s| > 0 && s[0] == '(' && s[|s| - 1] == ')'
  {
    var ts := PointTexts(nc, ps);
    if |ps| == 0 then Join(ts, ",")
    else
      JoinFrame(ts, ",", '(', ')');
      Join(ts, ",")
  }

  /** No points give the empty text; otherwise the first point's text comes first, followed by
      a comma and the text of the others when there are any. */
  lemma FormatPointsCons<N>(nc: NumCodec<N>, p: Point<N>, ps: seq<Point<N>>)
    ensures FormatPoints(nc, []) == ""
    ensures FormatPoints(nc, [p] + ps) ==
      FormatPoint(nc, p) + (if |ps| == 0 then "" else "," + FormatPoints(nc, ps))
  {
    var ts := PointTexts(nc, [p] + ps);
    assert ([p] + ps)[1..] == ps;
    assert ts == [FormatPoint(nc, p)] + PointTexts(nc, ps);
    if |ps| > 0 {
      JoinCons(FormatPoint(nc, p), PointTexts(nc, ps), ",");
    } else {
      assert ts == [FormatPoint(nc, p)];
    }
  }

  /** The text `(x,y)` of a point whose numbers are written `x` and `y`. */
  function PointText(x: string, y: string): string
  {
    "(" + x + "," + y + ")"
  }

  /** `s` is `(x,y)` for the number tokens `x` and `y`. */
  predicate PointTokens(s: string, x: string, y: string)
  {
    IsNumToken(x) && IsNumToken(y) && s == PointText(x, y)
  }

  /** The whole of `s` matches `^\((num),(num)\)$`. */
  ghost predicate IsPointText(s: string)
  {
    exists x, y :: PointTokens(s, x, y)
  }

  lemma PointTupleText(x: string, y: string)
    ensures TupleText('(', [x, y], ')') == PointText(x, y)
  {
    JoinTwo(x, y, ",");
  }

  /** The anchored point pattern matches exactly the point texts, and its two groups are the
      two numbers of the text. */
  lemma {:induction false} MatchPointIff(s: string)
    ensures MatchTuple(s, '(', ')', 2).Some? <==> IsPointText(s)
    ensures forall x, y :: PointTokens(s, x, y) ==> MatchTuple(s, '(', ')', 2) == Some([x, y])
  {
    forall x, y | PointTokens(s, x, y)
      ensures MatchTuple(s, '(', ')', 2) == Some([x, y])
    {
      PointTupleText(x, y);
      TokensTwo(x, y);
      MatchTupleOf('(', ')', [x, y]);
    }
    MatchTupleSound(s, '(', ')', 2);
    match MatchTuple(s, '(', ')', 2)
    case None =>
    case Some(ts) =>
      TokenAt(ts, 0);
      TokenAt(ts, 1);
      PointTupleText(ts[0], ts[1]);
      assert [ts[0], ts[1]] == ts;
      assert PointTokens(s, ts[0], ts[1]);
  }

  /** What every point text is made of: `(` first, `)` last, exactly one comma, and number
      characters in between. */
  lemma PointTextShape(s: string)
    requires IsPointText(s)
    ensures |s| >= 5 && s[0] == '(' && s[|s| - 1] == ')'
    ensures multiset(s)[','] == 1
    ensures forall i :: 0 < i < |s| - 1 ==> IsNumChar(s[i]) || s[i] == ','
  {
    var x, y :| PointTokens(s, x, y);
    TokenShape(x);
    TokenShape(y);
    PointCommas(x, y);
    PointChars(x, y);
  }

  lemma PointCommas(x: string, y: string)
    requires ',' !in x && ',' !in y
    ensures multiset(PointText(x, y))[','] == 1
  {
    assert multiset(PointText(x, y))
      == multiset("(") + multiset(x) + multiset(",") + multiset(y) + multiset(")");
  }

  lemma PointChars(x: string, y: string)
    requires forall i :: 0 <= i < |x| ==> IsNumChar(x[i])
    requires forall i :: 0 <= i < |y| ==> IsNumChar(y[i])
    ensures var s := PointText(x, y);
      forall i :: 0 < i < |s| - 1 ==> IsNumChar(s[i]) || s[i] == ','
  {
    var s := PointText(x, y);
    forall i | 0 < i < |s| - 1
      ensures IsNumChar(s[i]) || s[i] == ','
    {
      if i <= |x| {
        assert s[i] == x[i - 1];
      } else if i > |x| + 1 {
        assert s[i] == y[i - |x| - 2];
      }
    }
  }

  /** A text with a character that is neither a number character nor a comma between its
      ends is not a point text. */
  lemma NotPointTextChar(s: string, i: int)
    requires 0 < i < |s| - 1 && !IsNumChar(s[i]) && s[i] != ','
    ensures !IsPointText(s)
  {
    if IsPointText(s) {
      PointTextShape(s);
    }
  }

  /** A text without exactly one comma, or without its parentheses, is not a point text. */
  lemma NotPointTextFrame(s: string)
    requires multiset(s)[','] != 1 || |s| < 5 || s[0] != '(' || s[|s| - 1] != ')'
    ensures !IsPointText(s)
  {
    if IsPointText(s) {
      PointTextShape(s);
    }
  }

  /** `parsePoint`: the point of a text that is exactly `(lng,lat)`, "wrong point" for any other
      text, or the error of a number that does not parse. */
  function ParsePoint<N(==)>(nc: NumCodec<N>, s: string): (r: Result<Point<N>, Error>)
    ensures r == Failure(WrongPoint) <==> !IsPointText(s)
    ensures forall x, y :: PointTokens(s, x, y) ==>
      r == (if nc.parse(x).Failure? then Failure(BadNumber(nc.parse(x).error))
            else if nc.parse(y).Failure? then Failure(BadNumber(nc.parse(y).error))
            else Success(Point(nc.parse(y).value, nc.parse(x).value)))
  {
    MatchPointIff(s);
    match MatchTuple(s, '(', ')', 2)
    case None => Failure(WrongPoint)
    case Some(ts) =>
      ParseTwo(nc, ts);
      match ParseNums(nc, ts)
      case Failure(e) => Failure(e)
      case Success(nums) => Success(Point(nums[1], nums[0]))
  }

  /** The numbers of the point-shaped text at the front of `s`, if there is one. */
  function PointAt(s: string): (r: Option<seq<string>>)
    ensures r.Some? ==> |r.value| == 2
  {
    TuplePrefix(s, '(', ')', 2)
  }

  /** What `PointAt` finds is a point text at the front of `s`. */
  lemma PointAtSound(s: string)
    ensures PointAt(s).Some? ==>
      var ts := PointAt(s).value;
      PointTokens(PointText(ts[0], ts[1]), ts[0], ts[1]) && PointText(ts[0], ts[1]) <= s
  {
    TuplePrefixSound(s, '(', ')', 2);
    if PointAt(s).Some? {
      var ts := PointAt(s).value;
      TokenAt(ts, 0);
      TokenAt(ts, 1);
      PointTupleText(ts[0], ts[1]);
      assert [ts[0], ts[1]] == ts;
    }
  }

  /** `FindAllString` of the unanchored point pattern: the point-shaped texts of `s`, found
      left to right without overlapping; everything between them is skipped. Where a match
      starts it is the only one that can start there, since no number contains `,` or `)`. */
  function FindPoints(s: string): (r: seq<string>)
    ensures 5 * |r| <= |s|
    decreases |s|
  {
    if |s| == 0 then []
    else
      match PointAt(s)
      case None => FindPoints(s[1..])
      case Some(ts) =>
        PointAtSound(s);
        TokenShape(ts[0]);
        TokenShape(ts[1]);
        var m := PointText(ts[0], ts[1]);
        [m] + FindPoints(s[|m|..])
  }

  /** Every text `FindPoints` returns is a point text. */
  lemma {:induction false} FindPointsSound(s: string)
    ensures forall k :: 0 <= k < |FindPoints(s)| ==> IsPointText(FindPoints(s)[k])
    decreases |s|
  {
    if |s| > 0 {
      PointAtSound(s);
      match PointAt(s)
      case None =>
        FindPointsSound(s[1..]);
      case Some(ts) =>
        var m := PointText(ts[0], ts[1]);
        var rest := FindPoints(s[|m|..]);
        assert FindPoints(s) == [m] + rest;
        assert IsPointText(m) by {
          assert PointTokens(m, ts[0], ts[1]);
        }
        FindPointsSound(s[|m|..]);
        forall k | 0 <= k < |[m] + rest|
          ensures IsPointText(([m] + rest)[k])
        {
          if k > 0 {
            assert ([m] + rest)[k] == rest[k - 1];
          }
        }
    }
  }

  /** The values of a list of results, in order, or the error of the first one that failed:
      a loop that returns at its first error. */
  function Collect<T>(rs: seq<Result<T, Error>>): (r: Result<seq<T>, Error>)
    ensures r.Success? <==> forall k :: 0 <= k < |rs| ==> rs[k].Success?
    ensures r.Success? ==> |r.value| == |rs| && forall k :: 0 <= k < |rs| ==> rs[k] == Success(r.value[k])
    ensures r.Failure? ==>
      exists k :: 0 <= k < |rs| && rs[k] == Failure(r.error) &&
        forall j :: 0 <= j < k ==> rs[j].Success?
    decreases |rs|
  {
    if |rs| == 0 then Success([])
    else
      match rs[0]
      case Failure(e) => Failure(e)
      case Success(v) =>
        match Collect(rs[1..])
        case Failure(e) =>
          var k :| 0 <= k < |rs| - 1 && rs[1..][k] == Failure(e) &&
            forall j :: 0 <= j < k ==> rs[1..][j].Success?;
          assert rs[k + 1] == rs[1..][k];
          assert forall j :: 1 <= j < k + 1 ==> rs[j] == rs[1..][j - 1];
          Failure(e)
        case Success(vs) =>
          assert forall k :: 1 <= k < |rs| ==> rs[k] == rs[1..][k - 1];
          Success([v] + vs)
  }

  /** `parsePoints` over the found texts: each one parsed by `parsePoint`, in order, stopping
      at the first error. */
  function ParseEach<N(==)>(nc: NumCodec<N>, ms: seq<string>): (r: Result<seq<Point<N>>, Error>)
    ensures r.Success? <==> forall k :: 0 <= k < |ms| ==> ParsePoint(nc, ms[k]).Success?
    ensures r.Success? ==>
      |r.value| == |ms| &&
      (forall k :: 0 <= k < |ms| ==> ParsePoint(nc, ms[k]) == Success(r.value[k]))
    ensures r.Failure? ==>
      exists k :: 0 <= k < |ms| && ParsePoint(nc, ms[k]) == Failure(r.error) &&
        forall j :: 0 <= j < k ==> ParsePoint(nc, ms[j]).Success?
  {
    var rs := seq(|ms|, k requires 0 <= k < |ms| => ParsePoint(nc, ms[k]));
    assert |rs| == |ms| && forall k :: 0 <= k < |ms| ==> rs[k] == ParsePoint(nc, ms[k]);
    Collect(rs)
  }

  /** `parsePoints`: the points of every point-shaped text in `s`, in order. Since every text
      found is a point text, the only possible error is a number that does not parse. */
  function ParsePoints<N(==)>(nc: NumCodec<N>, s: string): (r: Result<seq<Point<N>>, Error>)
    ensures r.Success? <==>
      forall k :: 0 <= k < |FindPoints(s)| ==> ParsePoint(nc, FindPoints(s)[k]).Success?
    ensures r.Success? ==>
      |r.value| == |FindPoints(s)| &&
      (forall k :: 0 <= k < |r.value| ==> ParsePoint(nc, FindPoints(s)[k]) == Success(r.value[k]))
    ensures r.Failure? ==>
      exists k :: 0 <= k < |FindPoints(s)| && ParsePoint(nc, FindPoints(s)[k]) == Failure(r.error) &&
        forall j :: 0 <= j < k ==> ParsePoint(nc, FindPoints(s)[j]).Success?
    ensures r.Failure? ==> r.error.BadNumber?
    ensures FindPoints(s) == [] ==> r == Success([])
  {
    FoundPointsError(nc, s);
    ParseEach(nc, FindPoints(s))
  }

  lemma FoundPointsError<N>(nc: NumCodec<N>, s: string)
    ensures ParseEach(nc, FindPoints(s)).Failure? ==> ParseEach(nc, FindPoints(s)).error.BadNumber?
  {
    FindPointsSound(s);
    ParseEachError(nc, FindPoints(s));
  }

  /** Every error of decoding a list of point texts is a number's error. */
  lemma ParseEachError<N>(nc: NumCodec<N>, ms: seq<string>)
    requires forall k :: 0 <= k < |ms| ==> IsPointText(ms[k])
    ensures ParseEach(nc, ms).Failure? ==> ParseEach(nc, ms).error.BadNumber?
  {
    if ParseEach(nc, ms).Failure? {
      var k :| 0 <= k < |ms| && ParsePoint(nc, ms[k]) == Failure(ParseEach(nc, ms).error);
      ParsePointError(nc, ms[k]);
    }
  }

  /** A text in which exactly one point text is found gives exactly that point. */
  lemma ParsePointsOne<N>(nc: NumCodec<N>, s: string, m: string, x: string, y: string)
    requires FindPoints(s) == [m] && PointTokens(m, x, y)
    requires nc.parse(x).Success? && nc.parse(y).Success?
    ensures ParsePoints(nc, s) == Success([Point(nc.parse(y).value, nc.parse(x).value)])
  {
    var p := Point(nc.parse(y).value, nc.parse(x).value);
    assert ParsePoint(nc, m) == Success(p);
    ParseEachOne(nc, m, p);
    assert ParsePoints(nc, s) == ParseEach(nc, [m]);
  }

  lemma ParseEachOne<N>(nc: NumCodec<N>, m: string, p: Point<N>)
    requires ParsePoint(nc, m) == Success(p)
    ensures ParseEach(nc, [m]) == Success([p])
  {
    var ms := [m];
    assert ms[0] == m && ms[1..] == [];
    assert ParseEach(nc, ms[1..]) == Success([]);
    assert [p] + [] == [p];
  }

  /** A point text never fails with "wrong point"; it can only fail on a number. */
  lemma ParsePointError<N>(nc: NumCodec<N>, s: string)
    requires IsPointText(s)
    ensures ParsePoint(nc, s).Failure? ==> ParsePoint(nc, s).error.BadNumber?
  {
    var x, y :| PointTokens(s, x, y);
  }

  /** `parsePointsSrc`: the points of a source's text, or the source's error. */
  function ParsePointsSrc<N(==)>(nc: NumCodec<N>, src: Src): (r: Result<seq<Point<N>>, Error>)
    ensures SourceText(src).Failure? ==> r == Failure(SourceText(src).error)
    ensures SourceText(src).Success? ==> r == ParsePoints(nc, SourceText(src).value)
  {
    match SourceText(src)
    case Failure(e) => Failure(e)
    case Success(t) => ParsePoints(nc, t)
  }

  /** Formatting then parsing a point gives the point back: the first number of the text is
      the longitude and the second the latitude. */
  lemma PointRoundTrip<N>(nc: NumCodec<N>, p: Point<N>)
    requires CanonicalPoint(nc, p)
    ensures ParsePoint(nc, FormatPoint(nc, p)) == Success(p)
  {
    assert PointTokens(FormatPoint(nc, p), nc.format(p.lng), nc.format(p.lat));
  }

  /** Where a point text starts, it is the match found there. */
  lemma PointAtOf(s: string, x: string, y: string)
    requires IsNumToken(x) && IsNumToken(y) && PointText(x, y) <= s
    ensures PointAt(s) == Some([x, y])
  {
    PointTupleText(x, y);
    TokensTwo(x, y);
    TuplePrefixOf(s, '(', ')', [x, y]);
  }

  /** A match starts with `(` followed by the first character of a number. */
  lemma PointAtStart(s: string)
    requires PointAt(s).Some?
    ensures |s| >= 2 && s[0] == '(' && IsNumChar(s[1])
  {
    var ts := PointAt(s).value;
    PointAtSound(s);
    TokenShape(ts[0]);
    assert s[1] == PointText(ts[0], ts[1])[1] == ts[0][0];
  }

  /** No point is found exactly when no position of the text starts a point-shaped text. */
  lemma {:induction false} FindPointsEmpty(s: string)
    ensures FindPoints(s) == [] <==> forall j {:trigger PointAt(s[j..])} :: 0 <= j < |s| ==> PointAt(s[j..]).None?
    decreases |s|
  {
    if |s| > 0 {
      assert s[0..] == s;
      if PointAt(s).None? {
        FindPointsEmpty(s[1..]);
        forall j | 1 <= j < |s|
          ensures s[j..] == s[1..][j - 1..]
        {
        }
        assert forall j :: 0 <= j < |s| - 1 ==> s[1..][j..] == s[j + 1..];
      }
    }
  }

  /** Leftmost-first: the first text found is the match at the first position where one starts,
      and the search goes on after its end. */
  lemma FindPointsLeftmost(s: string, j: nat)
    requires j < |s| && PointAt(s[j..]).Some?
    requires forall i {:trigger PointAt(s[i..])} :: 0 <= i < j ==> PointAt(s[i..]).None?
    ensures var ts := PointAt(s[j..]).value;
      var m := PointText(ts[0], ts[1]);
      j + |m| <= |s| && FindPoints(s) == [m] + FindPoints(s[j + |m|..])
  {
    FindPointsDrop(s, j);
    FindPointsTake(s[j..]);
    var ts := PointAt(s[j..]).value;
    var m := PointText(ts[0], ts[1]);
    assert s[j..][|m|..] == s[j + |m|..];
  }

  /** Positions where no match starts are skipped one by one. */
  lemma {:induction false} FindPointsDrop(s: string, j: nat)
    requires j <= |s|
    requires forall i {:trigger PointAt(s[i..])} :: 0 <= i < j ==> PointAt(s[i..]).None?
    ensures FindPoints(s) == FindPoints(s[j..])
    decreases j
  {
    if j == 0 {
      assert s[0..] == s;
    } else {
      FindPointsDrop(s, j - 1);
      FindPointsDropOne(s, j);
    }
  }

  lemma FindPointsDropOne(s: string, j: nat)
    requires 0 < j <= |s| && PointAt(s[j - 1..]).None?
    ensures FindPoints(s[j - 1..]) == FindPoints(s[j..])
  {
    var u := s[j - 1..];
    FindPointsStep(u);
    assert u[1..] == s[j..];
  }

  /** Text without a `(` holds no point. */
  lemma FindPointsNone(h: string)
    requires forall i :: 0 <= i < |h| ==> h[i] != '('
    ensures FindPoints(h) == []
  {
    forall j | 0 <= j < |h|
      ensures PointAt(h[j..]).None?
    {
      if PointAt(h[j..]).Some? {
        PointAtStart(h[j..]);
      }
    }
    FindPointsEmpty(h);
  }

  /** A position where no match starts is skipped. */
  lemma FindPointsStep(s: string)
    requires |s| > 0 && PointAt(s).None?
    ensures FindPoints(s) == FindPoints(s[1..])
  {
  }

  /** A match is taken whole and the search goes on after it. */
  lemma FindPointsTake(s: string)
    requires PointAt(s).Some?
    ensures var ts := PointAt(s).value;
      var m := PointText(ts[0], ts[1]);
      |m| <= |s| && FindPoints(s) == [m] + FindPoints(s[|m|..])
  {
    PointAtSound(s);
  }

  lemma NoPointAt(s: string)
    requires |s| < 2 || s[0] != '(' || !IsNumChar(s[1])
    ensures PointAt(s).None?
  {
    if PointAt(s).Some? {
      PointAtStart(s);
    }
  }

  /** Leading text without number characters never starts a match when what follows does not
      start with one either: the search skips it. */
  lemma {:induction false} FindPointsSkip(g: string, s: string)
    requires forall i :: 0 <= i < |g| ==> !IsNumChar(g[i])
    requires |s| > 0 && !IsNumChar(s[0])
    ensures FindPoints(g + s) == FindPoints(s)
    decreases |g|
  {
    if |g| > 0 {
      var t := g + s;
      assert t[1] == if |g| > 1 then g[1] else s[0];
      NoPointAt(t);
      FindPointsStep(t);
      assert t[1..] == g[1..] + s;
      FindPointsSkip(g[1..], s);
    } else {
      assert g + s == s;
    }
  }

  /** A point text at the front is taken whole and the search goes on after it. */
  lemma FindPointsTokens(x: string, y: string, rest: string)
    requires IsNumToken(x) && IsNumToken(y)
    ensures var m := PointText(x, y);
      FindPoints(m + rest) == [m] + FindPoints(rest)
  {
    var m := PointText(x, y);
    PointAtOf(m + rest, x, y);
    FindPointsTake(m + rest);
    assert (m + rest)[|m|..] == rest;
  }

  /** The text of one point, found at the front, is taken whole. */
  lemma FindPointsHead<N>(nc: NumCodec<N>, p: Point<N>, rest: string)
    requires CanonicalPoint(nc, p)
    ensures FindPoints(FormatPoint(nc, p) + rest) == [FormatPoint(nc, p)] + FindPoints(rest)
  {
    FindPointsTokens(nc.format(p.lng), nc.format(p.lat), rest);
  }

  /** Searching the text of a list of points finds the text of each point, in order, and then
      goes on in whatever follows. */
  lemma {:induction false} FindPointsFormatted<N>(nc: NumCodec<N>, ps: seq<Point<N>>, h: string)
    requires AllCanonical(nc, ps)
    ensures FindPoints(FormatPoints(nc, ps) + h) == PointTexts(nc, ps) + FindPoints(h)
    decreases |ps|
  {
    if |ps| == 0 {
      assert FormatPoints(nc, ps) + h == h;
      assert PointTexts(nc, ps) + FindPoints(h) == FindPoints(h);
    } else if |ps| == 1 {
      assert CanonicalPoint(nc, ps[0]);
      FindPointsHead(nc, ps[0], h);
    } else {
      var m := FormatPoint(nc, ps[0]);
      FindPointsFormattedStep(nc, ps, h);
      assert AllCanonical(nc, ps[1..]) by {
        assert forall k :: 0 <= k < |ps| - 1 ==> ps[1..][k] == ps[k + 1];
      }
      FindPointsFormatted(nc, ps[1..], h);
      assert PointTexts(nc, ps) == [m] + PointTexts(nc, ps[1..]);
    }
  }

  /** The text of the first of several points is found, and the search goes on after the comma
      that follows it. */
  lemma FindPointsFormattedStep<N>(nc: NumCodec<N>, ps: seq<Point<N>>, h: string)
    requires |ps| >= 2 && CanonicalPoint(nc, ps[0])
    ensures FindPoints(FormatPoints(nc, ps) + h) ==
      [FormatPoint(nc, ps[0])] + FindPoints(FormatPoints(nc, ps[1..]) + h)
  {
    var tail := FormatPoints(nc, ps[1..]) + h;
    FormatPointsSplit(nc, ps, h);
    FindPointsHead(nc, ps[0], "," + tail);
    NoPointAt("," + tail);
    FindPointsStep("," + tail);
    assert ("," + tail)[1..] == tail;
  }

  /** The text of several points, followed by `h`: the first point's text, a comma, and the
      text of the others followed by `h`. */
  lemma FormatPointsSplit<N>(nc: NumCodec<N>, ps: seq<Point<N>>, h: string)
    requires |ps| >= 2
    ensures FormatPoints(nc, ps) + h == FormatPoint(nc, ps[0]) + ("," + (FormatPoints(nc, ps[1..]) + h))
  {
    JoinCons(FormatPoint(nc, ps[0]), PointTexts(nc, ps[1..]), ",");
    assert PointTexts(nc, ps) == [FormatPoint(nc, ps[0])] + PointTexts(nc, ps[1..]);
  }

  /** Parsing the texts of canonical points gives the points back. */
  lemma ParseEachTexts<N>(nc: NumCodec<N>, ps: seq<Point<N>>)
    requires AllCanonical(nc, ps)
    ensures ParseEach(nc, PointTexts(nc, ps)) == Success(ps)
  {
    var ts := PointTexts(nc, ps);
    forall k | 0 <= k < |ps|
      ensures ParsePoint(nc, ts[k]) == Success(ps[k])
    {
      assert CanonicalPoint(nc, ps[k]);
      PointRoundTrip(nc, ps[k]);
    }
    var r := ParseEach(nc, ts);
    assert r.value == ps;
  }

  /** The points of a formatted list are recovered from it even inside enclosing punctuation:
      an opening such as `[`, `((` or `<` before it, and anything without `(` after it. */
  lemma ParsePointsFramed<N>(nc: NumCodec<N>, g: string, ps: seq<Point<N>>, h: string)
    requires AllCanonical(nc, ps) && |ps| >= 1
    requires forall i :: 0 <= i < |g| ==> !IsNumChar(g[i])
    requires forall i :: 0 <= i < |h| ==> h[i] != '('
    ensures ParsePoints(nc, g + FormatPoints(nc, ps) + h) == Success(ps)
  {
    var body := FormatPoints(nc, ps) + h;
    assert body[0] == '(' by {
      if |ps| > 1 {
        JoinCons(FormatPoint(nc, ps[0]), PointTexts(nc, ps[1..]), ",");
      }
    }
    FindPointsSkip(g, body);
    FindPointsFormatted(nc, ps, h);
    FindPointsNone(h);
    assert g + FormatPoints(nc, ps) + h == g + body;
    assert PointTexts(nc, ps) + [] == PointTexts(nc, ps);
    ParseEachTexts(nc, ps);
  }
}

=== FILE: geometry.dfy ===
/** The value types of the codec, the errors it reports and the sources a `Scan` receives.

    Coordinates are float64 in the program. Here the number type is a type parameter `N`,
    and the two float conversions the codec relies on (`strconv.ParseFloat` and `%v`
    formatting) are supplied as a `NumCodec`, so every result below holds for any number
    type and any pair of conversions that satisfy the stated hypotheses. */
module Geometry {
  import opened Wrappers
  import opened Grammar

  /** The errors of the codec. `BadNumber` carries the message of a failed number conversion,
      passed on unwrapped; `IncompatibleType` names the kind of the unexpected source. */
  datatype Error =
    | WrongPoint
    | WrongLine
    | WrongCircle
    | WrongBox
    | WrongPath
    | WrongPolygon
    | WrongLseg
    | IncompatibleType(kind: string)
    | BadNumber(message: string)

  /** The number conversions: the zero value of the number type, a parser from text and a
      formatter to text. */
  datatype NumCodec<!N> = NumCodec(zero: N, parse: string -> Result<N, string>, format: N -> string)

  /** The token hypothesis on one number: its text is a token of the number grammar
      `-?[0-9]+(\.[0-9]+)?` and parsing that text gives the number back. */
  predicate Canonical<N(==)>(nc: NumCodec<N>, n: N)
  {
    IsNumToken(nc.format(n)) && nc.parse(nc.format(n)) == Success(n)
  }

  /** The token hypothesis on both coordinates of a point. */
  predicate CanonicalPoint<N(==)>(nc: NumCodec<N>, p: Point<N>)
  {
    Canonical(nc, p.lat) && Canonical(nc, p.lng)
  }

  /** The token hypothesis on every point of a list. */
  predicate AllCanonical<N(==)>(nc: NumCodec<N>, ps: seq<Point<N>>)
  {
    forall k :: 0 <= k < |ps| ==> CanonicalPoint(nc, ps[k])
  }

  /** A point. The program's struct declares `Lat` before `Lng`; the text form puts `Lng` first. */
  datatype Point<N> = Point(lat: N, lng: N)

  /** A circle: its center and its radius (any value, negative or zero included). */
  datatype Circle<N> = Circle(center: Point<N>, radius: N)

  /** The line `A x + B y + C = 0`; nothing forbids `A` and `B` both being zero. */
  datatype Line<N> = Line(a: N, b: N, c: N)

  /** Two opposite corners. */
  datatype Box<N> = Box(first: Point<N>, second: Point<N>)

  /** An open or closed path; `closed` is derived from the points when a path is decoded. */
  datatype Path<N> = Path(points: seq<Point<N>>, closed: bool)

  /** A polygon, implicitly closed. */
  datatype Polygon<N> = Polygon(points: seq<Point<N>>)

  /** A line segment between two points. */
  datatype Lseg<N> = Lseg(first: Point<N>, second: Point<N>)

  /** One byte of a byte-slice source. */
  newtype Byte = x: int | 0 <= x < 256

  /** What a `Scan` receives from the database driver: nothing (`nil`), a string, a byte
      slice, or a value of some other kind, named by its reflected kind. */
  datatype Src = Nil | Str(text: string) | Bytes(bytes: seq<Byte>) | Other(kind: string)

  /** The two results of a `Scan` or an `Unmarshal`: the value the receiver holds afterwards
      (or the value returned), and the error, if any. */
  datatype Outcome<T> = Outcome(value: T, err: Option<Error>)

  function ZeroPoint<N>(zero: N): Point<N>
  {
    Point(zero, zero)
  }
}

=== FILE: grammar.dfy ===
/** The regular expressions of the codec, written out as hand-made recognisers.

    Every pattern is built from one number grammar, `-?[0-9]+(\.[0-9]+)?`, and
    from tuples of such numbers between an opening and a closing character,
    separated by commas: `\((num),(num)\)` for a point and `\{(num),(num),(num)\}`
    for a line. A number never contains `,`, `)` or `}`, so the longest number at a
    position is the only one a tuple can use, and a greedy scan decides exactly
    what the regular expression decides. */
module Grammar {
  import opened Wrappers
  import opened Text

  predicate IsDigit(c: char)
  {
    '0' <= c <= '9'
  }

  /** A character that can extend a number: a digit, `.` or `-`. */
  predicate IsNumChar(c: char)
  {
    IsDigit(c) || c == '.' || c == '-'
  }

  /** `[0-9]+` */
  predicate AllDigits(s: string)
  {
    |s| > 0 && forall i :: 0 <= i < |s| ==> IsDigit(s[i])
  }

  /** `s` is `[0-9]+\.[0-9]+` with the dot at position `k`. */
  predicate DecimalAt(s: string, k: int)
  {
    0 < k < |s| && s[k] == '.' && AllDigits(s[..k]) && AllDigits(s[k + 1..])
  }

  /** `[0-9]+(\.[0-9]+)?` */
  predicate IsUnsigned(s: string)
  {
    AllDigits(s) || exists k :: 0 < k < |s| && DecimalAt(s, k)
  }

  /** `-?[0-9]+(\.[0-9]+)?`: no exponent, no leading `+`, no whitespace. */
  predicate IsNumToken(s: string)
  {
    IsUnsigned(s) || (|s| > 0 && s[0] == '-' && IsUnsigned(s[1..]))
  }

  /** Every string of `ts` is a number token. */
  predicate AllTokens(ts: seq<string>)
    decreases |ts|
  {
    |ts| == 0 || (IsNumToken(ts[0]) && AllTokens(ts[1..]))
  }

  lemma {:induction false} TokenAt(ts: seq<string>, i: nat)
    requires AllTokens(ts) && i < |ts|
    ensures IsNumToken(ts[i])
    decreases i
  {
    if i > 0 {
      TokenAt(ts[1..], i - 1);
    }
  }

  lemma TokensTwo(x: string, y: string)
    requires IsNumToken(x) && IsNumToken(y)
    ensures AllTokens([x, y])
  {
    TokensCons(y, []);
    TokensCons(x, [y]);
  }

  lemma TokensThree(a: string, b: string, c: string)
    requires IsNumToken(a) && IsNumToken(b) && IsNumToken(c)
    ensures AllTokens([a, b, c])
  {
    TokensTwo(b, c);
    TokensCons(a, [b, c]);
  }

  /** Length of the run of digits at the front of `s`. */
  function DigitRun(s: string): (n: nat)
    ensures n <= |s|
    decreases |s|
  {
    if |s| > 0 && IsDigit(s[0]) then 1 + DigitRun(s[1..]) else 0
  }

  /** The run is all digits and stops at the first character that is not one. */
  lemma {:induction false} DigitRunSpec(s: string)
    ensures forall i :: 0 <= i < DigitRun(s) ==> IsDigit(s[i])
    ensures DigitRun(s) < |s| ==> !IsDigit(s[DigitRun(s)])
    decreases |s|
  {
    if |s| > 0 && IsDigit(s[0]) {
      DigitRunSpec(s[1..]);
      forall i | 1 <= i < DigitRun(s)
        ensures IsDigit(s[i])
      {
        assert s[i] == s[1..][i - 1];
      }
    }
  }

  /** Length of the longest prefix of `s` in `[0-9]+(\.[0-9]+)?`, or 0 when there is none. */
  function UnsignedPrefix(s: string): (n: nat)
    ensures n <= |s|
  {
    var d := DigitRun(s);
    if d == 0 then 0
    else if d < |s| && s[d] == '.' && DigitRun(s[d + 1..]) > 0 then d + 1 + DigitRun(s[d + 1..])
    else d
  }

  /** What `UnsignedPrefix` finds is an unsigned number. */
  lemma UnsignedPrefixSound(s: string)
    ensures UnsignedPrefix(s) > 0 ==> IsUnsigned(s[..UnsignedPrefix(s)])
  {
    var d := DigitRun(s);
    DigitRunSpec(s);
    if d > 0 {
      if d < |s| && s[d] == '.' && DigitRun(s[d + 1..]) > 0 {
        var f := DigitRun(s[d + 1..]);
        DigitRunSpec(s[d + 1..]);
        assert s[..d + 1 + f][..d] == s[..d];
        assert s[..d + 1 + f][d + 1..] == s[d + 1..][..f];
        assert DecimalAt(s[..d + 1 + f], d);
      } else {
        assert AllDigits(s[..d]);
      }
    }
  }

  /** Length of the longest prefix of `s` that is a number token, or 0 when there is none. */
  function NumPrefix(s: string): (n: nat)
    ensures n <= |s|
  {
    if |s| > 0 && s[0] == '-' then
      var u := UnsignedPrefix(s[1..]);
      if u == 0 then 0 else 1 + u
    else
      UnsignedPrefix(s)
  }

  /** What `NumPrefix` finds is a number token. */
  lemma NumPrefixSound(s: string)
    ensures NumPrefix(s) > 0 ==> IsNumToken(s[..NumPrefix(s)])
  {
    if |s| > 0 && s[0] == '-' {
      var u := UnsignedPrefix(s[1..]);
      UnsignedPrefixSound(s[1..]);
      if u > 0 {
        assert s[..1 + u][1..] == s[1..][..u];
      }
    } else {
      UnsignedPrefixSound(s);
    }
  }

  /** What a number token is made of: number characters only, a digit or `-` first and a digit last. */
  lemma TokenShape(t: string)
    requires IsNumToken(t)
    ensures |t| > 0 && (IsDigit(t[0]) || t[0] == '-') && IsDigit(t[|t| - 1])
    ensures forall i :: 0 <= i < |t| ==> IsNumChar(t[i])
  {
    if !IsUnsigned(t) {
      assert t[1..][|t| - 2] == t[|t| - 1];
      forall i | 1 <= i < |t|
        ensures IsNumChar(t[i])
      {
        assert t[1..][i - 1] == t[i];
      }
    }
  }

  lemma {:induction false} DigitRunOf(a: string, b: string)
    requires forall i :: 0 <= i < |a| ==> IsDigit(a[i])
    requires |b| > 0 ==> !IsDigit(b[0])
    ensures DigitRun(a + b) == |a|
  {
    var s := a + b;
    DigitRunSpec(s);
    assert forall i :: 0 <= i < |a| ==> s[i] == a[i];
    if |b| > 0 {
      assert s[|a|] == b[0];
    }
  }

  lemma UnsignedPrefixOf(t: string, r: string)
    requires IsUnsigned(t)
    requires |r| > 0 ==> !IsNumChar(r[0])
    ensures UnsignedPrefix(t + r) == |t|
  {
    var s := t + r;
    if AllDigits(t) {
      DigitRunOf(t, r);
      assert |r| > 0 ==> s[|t|] == r[0];
    } else {
      var k :| 0 < k < |t| && DecimalAt(t, k);
      assert AllDigits(t[..k]) && AllDigits(t[k + 1..]);
      assert s == t[..k] + (t[k..] + r);
      DigitRunOf(t[..k], t[k..] + r);
      assert s[k + 1..] == t[k + 1..] + r;
      DigitRunOf(t[k + 1..], r);
    }
  }

  /** The greedy scan stops exactly at the end of a number followed by a character that cannot extend it. */
  lemma {:induction false} NumPrefixOf(t: string, r: string)
    requires IsNumToken(t)
    requires |r| > 0 ==> !IsNumChar(r[0])
    ensures NumPrefix(t + r) == |t|
  {
    var s := t + r;
    if IsUnsigned(t) {
      TokenShape(t);
      UnsignedPrefixOf(t, r);
    } else {
      assert s[1..] == t[1..] + r;
      UnsignedPrefixOf(t[1..], r);
    }
  }

  /** The `k` comma-separated numbers at the front of `s`, when they are there. */
  function Fields(s: string, k: nat): (r: Option<seq<string>>)
    requires k >= 1
    ensures r.Some? ==> |r.value| == k
    decreases k
  {
    var n := NumPrefix(s);
    if n == 0 then None
    else if k == 1 then Some([s[..n]])
    else if n < |s| && s[n] == ',' then
      match Fields(s[n + 1..], k - 1)
      case None => None
      case Some(rest) => Some([s[..n]] + rest)
    else None
  }

  /** What `Fields` finds are number tokens whose comma-joined text starts `s`. */
  lemma {:induction false} FieldsSound(s: string, k: nat)
    requires k >= 1
    ensures Fields(s, k).Some? ==>
      AllTokens(Fields(s, k).value) && Join(Fields(s, k).value, ",") <= s
    decreases k
  {
    var n := NumPrefix(s);
    NumPrefixSound(s);
    if n > 0 && k == 1 {
      TokensCons(s[..n], []);
      assert [s[..n]] + [] == [s[..n]];
    } else if n > 0 && n < |s| && s[n] == ',' && k > 1 {
      FieldsSound(s[n + 1..], k - 1);
      if Fields(s[n + 1..], k - 1).Some? {
        FieldsCons(s, n, Fields(s[n + 1..], k - 1).value);
      }
    }
  }

  lemma FieldsCons(s: string, n: nat, rest: seq<string>)
    requires 0 < n < |s| && s[n] == ',' && IsNumToken(s[..n])
    requires |rest| >= 1 && AllTokens(rest) && Join(rest, ",") <= s[n + 1..]
    ensures AllTokens([s[..n]] + rest)
    ensures Join([s[..n]] + rest, ",") <= s
  {
    var ts := [s[..n]] + rest;
    assert ts[1..] == rest;
    TokensCons(s[..n], rest);
    JoinCons(s[..n], rest, ",");
    var j := Join(rest, ",");
    PrefixCons(s, n, j);
  }

  lemma PrefixCons(s: string, n: nat, j: string)
    requires n < |s| && s[n] == ',' && j <= s[n + 1..]
    ensures s[..n] + "," + j <= s
  {
  }

  lemma TokensCons(t: string, ts: seq<string>)
    requires IsNumToken(t) && AllTokens(ts)
    ensures AllTokens([t] + ts)
  {
    assert ([t] + ts)[1..] == ts;
  }

  /** A token and a comma in front of a text add the token in front of the fields found there. */
  lemma FieldsStep(t: string, tail: string, k: nat)
    requires k >= 2 && IsNumToken(t)
    ensures Fields(t + "," + tail, k) ==
      if Fields(tail, k - 1).Some? then Some([t] + Fields(tail, k - 1).value) else None
  {
    NumPrefixComma(t, tail);
    var s := t + "," + tail;
    assert s[..|t|] == t;
    assert s[|t| + 1..] == tail;
  }

  lemma NumPrefixComma(t: string, rest: string)
    requires IsNumToken(t)
    ensures NumPrefix(t + "," + rest) == |t| > 0
  {
    TokenShape(t);
    var u := "," + rest;
    assert t + "," + rest == t + u;
    NumPrefixOf(t, u);
  }

  /** `Fields` recovers every list of numbers from its comma-joined text. */
  lemma FieldsOf(ts: seq<string>, r: string)
    requires |ts| >= 1 && AllTokens(ts)
    requires |r| > 0 ==> !IsNumChar(r[0])
    ensures Fields(Join(ts, ",") + r, |ts|) == Some(ts)
  {
    CommaJoin(ts, r);
    FieldsOfLen(ts, r, |ts|);
  }

  /** The numbers `ts` joined by commas, followed by `r`. */
  function Commas(ts: seq<string>, r: string): string
    requires |ts| >= 1
    decreases |ts|
  {
    if |ts| == 1 then ts[0] + r else ts[0] + "," + Commas(ts[1..], r)
  }

  lemma {:induction false} CommaJoin(ts: seq<string>, r: string)
    requires |ts| >= 1
    ensures Commas(ts, r) == Join(ts, ",") + r
    decreases |ts|
  {
    if |ts| > 1 {
      CommaJoin(ts[1..], r);
      JoinHead(ts, r);
    }
  }

  lemma {:induction false} FieldsOfLen(ts: seq<string>, r: string, k: nat)
    requires k == |ts| && k >= 1 && AllTokens(ts)
    requires |r| > 0 ==> !IsNumChar(r[0])
    ensures Fields(Commas(ts, r), k) == Some(ts)
    decreases k
  {
    if k == 1 {
      FieldsOfOne(ts, r, k);
    } else {
      var tail := Commas(ts[1..], r);
      assert Commas(ts, r) == ts[0] + "," + tail;
      FieldsOfLen(ts[1..], r, k - 1);
      assert Fields(tail, k - 1) == Some(ts[1..]);
      FieldsStep(ts[0], tail, k);
      assert Fields(tail, k - 1).Some? && Fields(tail, k - 1).value == ts[1..];
      assert Fields(ts[0] + "," + tail, k) == Some([ts[0]] + ts[1..]);
      HeadTail(ts);
    }
  }

  lemma FieldsOfOne(ts: seq<string>, r: string, k: nat)
    requires k == |ts| == 1 && IsNumToken(ts[0])
    requires |r| > 0 ==> !IsNumChar(r[0])
    ensures Fields(Commas(ts, r), k) == Some(ts)
  {
    var t := ts[0];
    NumPrefixOf(t, r);
    assert (t + r)[..|t|] == t;
    assert ts == [t];
  }

  lemma HeadTail(ts: seq<string>)
    requires |ts| >= 1
    ensures [ts[0]] + ts[1..] == ts
  {
  }

  lemma JoinHead(ts: seq<string>, r: string)
    requires |ts| >= 2
    ensures Join(ts, ",") + r == ts[0] + "," + (Join(ts[1..], ",") + r)
  {
  }

  /** The text of a tuple: `open`, the numbers joined by commas, `close`. */
  function TupleText(open: char, ts: seq<string>, close: char): string
  {
    [open] + Join(ts, ",") + [close]
  }

  /** The numbers of the `k`-tuple at the front of `s`, when there is one. */
  function TuplePrefix(s: string, open: char, close: char, k: nat): (r: Option<seq<string>>)
    requires k >= 1
    ensures r.Some? ==> |r.value| == k
  {
    if |s| == 0 || s[0] != open then None
    else
      match Fields(s[1..], k)
      case None => None
      case Some(ts) =>
        var e := 1 + |Join(ts, ",")|;
        if e < |s| && s[e] == close then Some(ts) else None
  }

  /** What `TuplePrefix` finds are number tokens, and their tuple text starts `s`. */
  lemma TuplePrefixSound(s: string, open: char, close: char, k: nat)
    requires k >= 1
    ensures TuplePrefix(s, open, close, k).Some? ==>
      AllTokens(TuplePrefix(s, open, close, k).value) &&
      TupleText(open, TuplePrefix(s, open, close, k).value, close) <= s
  {
    if TuplePrefix(s, open, close, k).Some? {
      FieldsSound(s[1..], k);
      var ts := Fields(s[1..], k).value;
      TupleTextPrefix(s, open, Join(ts, ","), close);
    }
  }

  lemma TupleTextPrefix(s: string, open: char, body: string, close: char)
    requires |s| > 0 && s[0] == open && body <= s[1..]
    requires 1 + |body| < |s| && s[1 + |body|] == close
    ensures [open] + body + [close] <= s
  {
    var t := [open] + body + [close];
    forall i | 0 <= i < |t|
      ensures t[i] == s[i]
    {
      if 0 < i <= |body| {
        assert t[i] == body[i - 1] == s[1..][i - 1];
      }
    }
  }

  /** A tuple of numbers is found at the front of any text that starts with it. */
  lemma TuplePrefixOf(s: string, open: char, close: char, ts: seq<string>)
    requires |ts| >= 1 && AllTokens(ts) && !IsNumChar(close)
    requires TupleText(open, ts, close) <= s
    ensures TuplePrefix(s, open, close, |ts|) == Some(ts)
  {
    var body := Join(ts, ",");
    FrameSplit(s, open, body, close);
    FieldsOf(ts, s[1 + |body|..]);
  }

  lemma FrameSplit(s: string, open: char, body: string, close: char)
    requires [open] + body + [close] <= s
    ensures |s| > 1 + |body| && s[0] == open && s[1 + |body|] == close
    ensures s[1..] == body + s[1 + |body|..]
  {
    var t := [open] + body + [close];
    assert s[0] == t[0] && s[1 + |body|] == t[1 + |body|];
    forall i | 0 <= i < |body|
      ensures s[1..][i] == body[i]
    {
      assert s[1 + i] == t[1 + i];
    }
  }

  /** The numbers of `s` when the whole of `s` is a `k`-tuple (the anchored pattern `^...$`). */
  function MatchTuple(s: string, open: char, close: char, k: nat): (r: Option<seq<string>>)
    requires k >= 1
    ensures r.Some? ==> |r.value| == k
  {
    match TuplePrefix(s, open, close, k)
    case None => None
    case Some(ts) => if |TupleText(open, ts, close)| == |s| then Some(ts) else None
  }

  /** What `MatchTuple` finds are number tokens whose tuple text is the whole of `s`. */
  lemma MatchTupleSound(s: string, open: char, close: char, k: nat)
    requires k >= 1
    ensures MatchTuple(s, open, close, k).Some? ==>
      AllTokens(MatchTuple(s, open, close, k).value) &&
      s == TupleText(open, MatchTuple(s, open, close, k).value, close)
  {
    TuplePrefixSound(s, open, close, k);
  }

  /** The anchored match accepts every tuple text and returns its numbers. */
  lemma MatchTupleOf(open: char, close: char, ts: seq<string>)
    requires |ts| >= 1 && AllTokens(ts) && !IsNumChar(close)
    ensures MatchTuple(TupleText(open, ts, close), open, close, |ts|) == Some(ts)
  {
    TuplePrefixOf(TupleText(open, ts, close), open, close, ts);
  }
}

=== FILE: lines.dfy ===
/** The text codec of a line: `valueLine` and `scanLine`, with the anchored pattern
    `^\{(num),(num),(num)\}$`. */
module Lines {
  import opened Wrappers
  import opened Text
  import opened Grammar
  import opened Geometry
  import opened General

  /** `s` is `{a,b,c}` for the number tokens `a`, `b` and `c`. */
  predicate LineTokens(s: string, a: string, b: string, c: string)
  {
    IsNumToken(a) && IsNumToken(b) && IsNumToken(c) && s == "{" + a + "," + b + "," + c + "}"
  }

  /** The whole of `s` matches the line pattern. */
  ghost predicate IsLineText(s: string)
  {
    exists a, b, c :: LineTokens(s, a, b, c)
  }

  lemma LineTupleText(a: string, b: string, c: string)
    ensures TupleText('{', [a, b, c], '}') == "{" + a + "," + b + "," + c + "}"
  {
    assert [a, b, c][1..] == [b, c];
    JoinTwo(b, c, ",");
  }

  /** The anchored line pattern matches exactly the line texts, and its three groups are the
      three numbers of the text. */
  lemma {:induction false} MatchLineIff(s: string)
    ensures MatchTuple(s, '{', '}', 3).Some? <==> IsLineText(s)
    ensures forall a, b, c :: LineTokens(s, a, b, c) ==> MatchTuple(s, '{', '}', 3) == Some([a, b, c])
  {
    forall a, b, c | LineTokens(s, a, b, c)
      ensures MatchTuple(s, '{', '}', 3) == Some([a, b, c])
    {
      LineTupleText(a, b, c);
      TokensThree(a, b, c);
      MatchTupleOf('{', '}', [a, b, c]);
    }
    MatchTupleSound(s, '{', '}', 3);
    match MatchTuple(s, '{', '}', 3)
    case None =>
    case Some(ts) =>
      TokenAt(ts, 0);
      TokenAt(ts, 1);
      TokenAt(ts, 2);
      LineTupleText(ts[0], ts[1], ts[2]);
      assert [ts[0], ts[1], ts[2]] == ts;
      assert LineTokens(s, ts[0], ts[1], ts[2]);
  }

  /** A text the anchored pattern turns away is not a line text. */
  lemma NotLineText(s: string)
    requires MatchTuple(s, '{', '}', 3).None?
    ensures !IsLineText(s)
  {
    MatchLineIff(s);
  }

  /** What every line text is made of: `{` first, `}` last, exactly two commas, and number
      characters in between. */
  lemma LineTextShape(s: string)
    requires IsLineText(s)
    ensures |s| >= 7 && s[0] == '{' && s[|s| - 1] == '}'
    ensures multiset(s)[','] == 2
    ensures forall i :: 0 < i < |s| - 1 ==> IsNumChar(s[i]) || s[i] == ','
  {
    var a, b, c :| LineTokens(s, a, b, c);
    TokenShape(a);
    TokenShape(b);
    TokenShape(c);
    LineCommas(a, b, c);
    LineChars(a, b, c);
  }

  lemma LineCommas(a: string, b: string, c: string)
    requires ',' !in a && ',' !in b && ',' !in c
    ensures multiset("{" + a + "," + b + "," + c + "}")[','] == 2
  {
    assert multiset("{" + a + "," + b + "," + c + "}") == multiset("{") + multiset(a) + multiset(",")
      + multiset(b) + multiset(",") + multiset(c) + multiset("}");
  }

  lemma LineChars(a: string, b: string, c: string)
    requires forall i :: 0 <= i < |a| ==> IsNumChar(a[i])
    requires forall i :: 0 <= i < |b| ==> IsNumChar(b[i])
    requires forall i :: 0 <= i < |c| ==> IsNumChar(c[i])
    ensures var s := "{" + a + "," + b + "," + c + "}";
      forall i :: 0 < i < |s| - 1 ==> IsNumChar(s[i]) || s[i] == ','
  {
    var s := "{" + a + "," + b + "," + c + "}";
    forall i | 0 < i < |s| - 1
      ensures IsNumChar(s[i]) || s[i] == ','
    {
      if i <= |a| {
        assert s[i] == a[i - 1];
      } else if i == |a| + 1 {
      } else if i <= |a| + 1 + |b| {
        assert s[i] == b[i - |a| - 2];
      } else if i == |a| + |b| + 2 {
      } else {
        assert s[i] == c[i - |a| - |b| - 3];
      }
    }
  }

  /** `valueLine`: `{A,B,C}`; formatting cannot fail, so no error is modelled. When the three
      numbers are written as tokens, the anchored line pattern accepts the text. */
  function ValueLine<N>(nc: NumCodec<N>, l: Line<N>): (r: string)
    ensures IsNumToken(nc.format(l.a)) && IsNumToken(nc.format(l.b)) && IsNumToken(nc.format(l.c)) ==>
      IsLineText(r)
  {
    var r := "{" + nc.format(l.a) + "," + nc.format(l.b) + "," + nc.format(l.c) + "}";
    assert IsNumToken(nc.format(l.a)) && IsNumToken(nc.format(l.b)) && IsNumToken(nc.format(l.c)) ==>
      LineTokens(r, nc.format(l.a), nc.format(l.b), nc.format(l.c));
    r
  }

  /** `scanLine`: what the receiver holds after scanning `src`, and the error.
      `nil` gives the line with all coefficients zero. On every error the receiver keeps its
      value: it is written only for `nil` and on full success. Text that is not exactly
      `{A,B,C}` gives "wrong line"; otherwise the coefficients are the three numbers in order,
      or the error of the first that does not parse. */
  function ScanLine<N(==)>(nc: NumCodec<N>, prev: Line<N>, src: Src): (r: Outcome<Line<N>>)
    ensures src.Nil? ==> r == Outcome(Line(nc.zero, nc.zero, nc.zero), None)
    ensures src.Other? ==> r == Outcome(prev, Some(IncompatibleType(src.kind)))
    ensures r.err.Some? ==> r.value == prev
    ensures !src.Nil? && SourceText(src).Success? ==>
      var s := SourceText(src).value;
      (r.err == Some(WrongLine) <==> !IsLineText(s)) &&
      (forall a, b, c :: LineTokens(s, a, b, c) ==>
        r.err == (if nc.parse(a).Failure? then Some(BadNumber(nc.parse(a).error))
                  else if nc.parse(b).Failure? then Some(BadNumber(nc.parse(b).error))
                  else if nc.parse(c).Failure? then Some(BadNumber(nc.parse(c).error))
                  else None) &&
        (r.err.None? ==> r.value == Line(nc.parse(a).value, nc.parse(b).value, nc.parse(c).value)))
  {
    if src.Nil? then Outcome(Line(nc.zero, nc.zero, nc.zero), None)
    else
      match SourceText(src)
      case Failure(e) => Outcome(prev, Some(e))
      case Success(s) =>
        MatchLineIff(s);
        match MatchTuple(s, '{', '}', 3)
        case None => Outcome(prev, Some(WrongLine))
        case Some(ts) =>
          ParseThree(nc, ts);
          match ParseNums(nc, ts)
          case Failure(e) => Outcome(prev, Some(e))
          case Success(nums) => Outcome(Line(nums[0], nums[1], nums[2]), None)
  }

  /** Scanning the value of a line gives the line back, whatever the receiver held. */
  lemma ScanValueLine<N>(nc: NumCodec<N>, prev: Line<N>, l: Line<N>)
    requires Canonical(nc, l.a) && Canonical(nc, l.b) && Canonical(nc, l.c)
    ensures ScanLine(nc, prev, Str(ValueLine(nc, l))) == Outcome(l, None)
  {
    assert LineTokens(ValueLine(nc, l), nc.format(l.a), nc.format(l.b), nc.format(l.c));
  }

  /** A byte slice scans exactly like the string with the same characters. */
  lemma ScanLineBytes<N>(nc: NumCodec<N>, prev: Line<N>, bs: seq<Byte>)
    ensures ScanLine(nc, prev, Bytes(bs)) == ScanLine(nc, prev, Str(BytesText(bs)))
  {
  }

  /** Text that is not a line leaves the receiver as it was, with "wrong line". */
  lemma ScanLineWrong<N>(nc: NumCodec<N>, prev: Line<N>, s: string)
    requires !IsLineText(s)
    ensures ScanLine(nc, prev, Str(s)) == Outcome(prev, Some(WrongLine))
  {
  }

  /** A text with a character that is neither a number character nor a comma between its
      ends is not a line text. */
  lemma NotLineTextChar(s: string, i: int)
    requires 0 < i < |s| - 1 && !IsNumChar(s[i]) && s[i] != ','
    ensures !IsLineText(s)
  {
    if IsLineText(s) {
      LineTextShape(s);
    }
  }

  /** A text without exactly two commas, or without its braces, is not a line text. */
  lemma NotLineTextFrame(s: string)
    requires multiset(s)[','] != 2 || |s| < 7 || s[0] != '{' || s[|s| - 1] != '}'
    ensures !IsLineText(s)
  {
    if IsLineText(s) {
      LineTextShape(s);
    }
  }

  /** Texts the line pattern turns away: a missing brace and a fourth number. */
  lemma NotLineTexts()
    ensures !IsLineText("{1,2,3")
    ensures !IsLineText("{1,2,3,4}")
  {
    NotLineTextFrame("{1,2,3");
    NotLineTextFrame("{1,2,3,4}");
  }

  /** More texts the line pattern turns away: a space and an exponent. */
  lemma NotLineTextsChars()
    ensures !IsLineText("{1, 2,3}")
    ensures !IsLineText("{1e3,2,3}")
  {
    NotLineTextChar("{1, 2,3}", 3);
    NotLineTextChar("{1e3,2,3}", 2);
  }
}

=== FILE: points.dfy ===
/** The driver entry points of a point: `valuePoint` and `scanPoint`. */
module Points {
  import opened Wrappers
  import opened Grammar
  import opened Geometry
  import opened General

  /** `valuePoint`: the text of the point; formatting cannot fail, so no error is modelled.
      When both numbers are written as tokens, `scanPoint` accepts the text as a point. */
  function ValuePoint<N>(nc: NumCodec<N>, p: Point<N>): (r: string)
    ensures IsNumToken(nc.format(p.lng)) && IsNumToken(nc.format(p.lat)) ==> IsPointText(r)
  {
    FormatPoint(nc, p)
  }

  /** `scanPoint`: what the receiver holds after scanning `src`, and the error.
      `nil` gives the zero point. A source of another type leaves the receiver as it was.
      Text that is not exactly `(lng,lat)` gives "wrong point", and in that case, as when a
      number does not parse, the receiver is overwritten with the zero point, because the
      result of `parsePoint` is assigned before its error is looked at. */
  function ScanPoint<N(==)>(nc: NumCodec<N>, prev: Point<N>, src: Src): (r: Outcome<Point<N>>)
    ensures src.Nil? ==> r == Outcome(ZeroPoint(nc.zero), None)
    ensures src.Other? ==> r == Outcome(prev, Some(IncompatibleType(src.kind)))
    ensures !src.Nil? && SourceText(src).Success? ==>
      var s := SourceText(src).value;
      (r.err == Some(WrongPoint) <==> !IsPointText(s)) &&
      (r.err.Some? ==> r.value == ZeroPoint(nc.zero)) &&
      (forall x, y :: PointTokens(s, x, y) ==>
        r.err == (if nc.parse(x).Failure? then Some(BadNumber(nc.parse(x).error))
                  else if nc.parse(y).Failure? then Some(BadNumber(nc.parse(y).error))
                  else None) &&
        (r.err.None? ==> r.value == Point(nc.parse(y).value, nc.parse(x).value)))
  {
    if src.Nil? then Outcome(ZeroPoint(nc.zero), None)
    else
      match SourceText(src)
      case Failure(e) => Outcome(prev, Some(e))
      case Success(s) =>
        match ParsePoint(nc, s)
        case Failure(e) => Outcome(ZeroPoint(nc.zero), Some(e))
        case Success(p) => Outcome(p, None)
  }

  /** Scanning the value of a point gives the point back, whatever the receiver held. */
  lemma ScanValuePoint<N>(nc: NumCodec<N>, prev: Point<N>, p: Point<N>)
    requires CanonicalPoint(nc, p)
    ensures ScanPoint(nc, prev, Str(ValuePoint(nc, p))) == Outcome(p, None)
  {
    PointRoundTrip(nc, p);
  }

  /** A byte slice scans exactly like the string with the same characters. */
  lemma ScanPointBytes<N>(nc: NumCodec<N>, prev: Point<N>, bs: seq<Byte>)
    ensures ScanPoint(nc, prev, Bytes(bs)) == ScanPoint(nc, prev, Str(BytesText(bs)))
  {
  }

  /** Text that is not a point overwrites the receiver with the zero point and gives
      "wrong point". */
  lemma ScanPointWrong<N>(nc: NumCodec<N>, prev: Point<N>, s: string)
    requires !IsPointText(s)
    ensures ScanPoint(nc, prev, Str(s)) == Outcome(ZeroPoint(nc.zero), Some(WrongPoint))
  {
  }

  /** Texts the anchored point pattern turns away: a third number, a space and an exponent. */
  lemma NotPointTexts()
    ensures !IsPointText("(1,2,3)")
    ensures !IsPointText("( 1,2)")
    ensures !IsPointText("(1e3,2)")
  {
    assert !IsPointText("(1,2,3)") by {
      NotPointTextFrame("(1,2,3)");
    }
    assert !IsPointText("( 1,2)") by {
      NotPointTextChar("( 1,2)", 1);
    }
    assert !IsPointText("(1e3,2)") by {
      NotPointTextChar("(1e3,2)", 2);
    }
  }
}

=== FILE: text.dfy ===
/** The few operations of Go's `strings` package the codec relies on:
    `Join`, `Split` and `Trim`, on text modelled as a sequence of characters. */
module Text {
  import opened Wrappers

  /** `strings.Join`: the elements of `xs` with `sep` between neighbours. */
  function Join(xs: seq<string>, sep: string): string
    decreases |xs|
  {
    if |xs| == 0 then ""
    else if |xs| == 1 then xs[0]
    else xs[0] + sep + Join(xs[1..], sep)
  }

  lemma JoinCons(x: string, xs: seq<string>, sep: string)
    requires |xs| >= 1
    ensures Join([x] + xs, sep) == x + sep + Join(xs, sep)
  {
    assert ([x] + xs)[1..] == xs;
  }

  /** Joining texts that all start with `a` and end with `b` gives a text that starts with `a`
      and ends with `b`. */
  lemma {:induction false} JoinFrame(xs: seq<string>, sep: string, a: char, b: char)
    requires |xs| > 0
    requires forall k :: 0 <= k < |xs| ==> |xs[k]| > 0 && xs[k][0] == a && xs[k][|xs[k]| - 1] == b
    ensures var j := Join(xs, sep); |j| > 0 && j[0] == a && j[|j| - 1] == b
    decreases |xs|
  {
    if |xs| > 1 {
      assert forall k :: 0 <= k < |xs| - 1 ==> xs[1..][k] == xs[k + 1];
      JoinFrame(xs[1..], sep, a, b);
    }
  }

  /** Two texts joined: the first, the separator, the second. */
  lemma JoinTwo(x: string, y: string, sep: string)
    ensures Join([x, y], sep) == x + sep + y
  {
    assert [x, y][1..] == [y];
  }

  /** True when `sep` occurs in `s` starting at position `j`. */
  predicate OccursAt(s: string, sep: string, j: int)
  {
    0 <= j && j + |sep| <= |s| && s[j..j + |sep|] == sep
  }

  /** True when `sep` occurs anywhere in `s`. */
  predicate Contains(s: string, sep: string)
  {
    exists j :: 0 <= j <= |s| && OccursAt(s, sep, j)
  }

  /** The first occurrence of `sep` in `s` at or after position `i` (`strings.Index` on a suffix). */
  function IndexFrom(s: string, sep: string, i: nat): (r: Option<nat>)
    requires |sep| > 0 && i <= |s|
    ensures r.Some? ==> i <= r.value && OccursAt(s, sep, r.value)
    ensures forall j :: i <= j && (r.None? || j < r.value) ==> !OccursAt(s, sep, j)
    decreases |s| - i
  {
    if i + |sep| > |s| then None
    else if s[i..i + |sep|] == sep then Some(i)
    else IndexFrom(s, sep, i + 1)
  }

  /** The pieces of `s[i..]` between the non-overlapping occurrences of `sep`, found left to right. */
  function SplitFrom(s: string, sep: string, i: nat): (r: seq<string>)
    requires |sep| > 0 && i <= |s|
    ensures |r| >= 1
    ensures Join(r, sep) == s[i..]
    ensures forall k :: 0 <= k < |r| ==> !Contains(r[k], sep)
    decreases |s| - i
  {
    match IndexFrom(s, sep, i)
    case None =>
      NoOccurrenceInSuffix(s, sep, i);
      [s[i..]]
    case Some(m) =>
      NoOccurrenceInPiece(s, sep, i, m);
      var rest := SplitFrom(s, sep, m + |sep|);
      assert s[i..] == s[i..m] + sep + s[m + |sep|..];
      [s[i..m]] + rest
  }

  /** `strings.Split` for a non-empty separator. */
  function Split(s: string, sep: string): (r: seq<string>)
    requires |sep| > 0
    ensures |r| >= 1
    ensures Join(r, sep) == s
    ensures forall k :: 0 <= k < |r| ==> !Contains(r[k], sep)
  {
    SplitFrom(s, sep, 0)
  }

  lemma NoOccurrenceInSuffix(s: string, sep: string, i: nat)
    requires |sep| > 0 && i <= |s|
    requires forall j :: i <= j ==> !OccursAt(s, sep, j)
    ensures !Contains(s[i..], sep)
  {
    forall j | 0 <= j <= |s[i..]| && OccursAt(s[i..], sep, j)
      ensures false
    {
      assert s[i..][j..j + |sep|] == s[i + j..i + j + |sep|];
      assert OccursAt(s, sep, i + j);
    }
  }

  lemma NoOccurrenceInPiece(s: string, sep: string, i: nat, m: nat)
    requires |sep| > 0 && i <= m <= |s|
    requires forall j :: i <= j < m ==> !OccursAt(s, sep, j)
    ensures !Contains(s[i..m], sep)
  {
    forall j | 0 <= j <= |s[i..m]| && OccursAt(s[i..m], sep, j)
      ensures false
    {
      var piece := s[i..m];
      assert i + j + |sep| <= m;
      assert OccursAt(s, sep, i + j) by {
        forall t | 0 <= t < |sep|
          ensures s[i + j..i + j + |sep|][t] == sep[t]
        {
          assert sep[t] == piece[j..j + |sep|][t] == piece[j + t];
        }
      }
    }
  }

  /** `strings.TrimLeft` with a one-character cut set: drops every leading `c`. */
  function TrimLeft(s: string, c: char): (r: string)
    ensures |r| <= |s| && r == s[|s| - |r|..]
    ensures forall k :: 0 <= k < |s| - |r| ==> s[k] == c
    ensures |r| > 0 ==> r[0] != c
    decreases |s|
  {
    if |s| > 0 && s[0] == c then TrimLeft(s[1..], c) else s
  }

  /** `strings.TrimRight` with a one-character cut set: drops every trailing `c`. */
  function TrimRight(s: string, c: char): (r: string)
    ensures r <= s
    ensures forall k :: |r| <= k < |s| ==> s[k] == c
    ensures |r| > 0 ==> r[|r| - 1] != c
    decreases |s|
  {
    if |s| > 0 && s[|s| - 1] == c then TrimRight(s[..|s| - 1], c) else s
  }

  /** `r` is `s` with a run of `c` removed from each end. */
  ghost predicate IsTrimOf(r: string, s: string, c: char)
  {
    exists i :: 0 <= i <= |s|
      && r <= s[i..]
      && (forall k :: 0 <= k < i ==> s[k] == c)
      && (forall k :: i + |r| <= k < |s| ==> s[k] == c)
  }

  /** `strings.Trim` with a one-character cut set: `s` with a run of `c` removed from each end,
      and no `c` left at either end of what remains, so every leading and every trailing `c`
      goes, not only one of them. */
  function Trim(s: string, c: char): (r: string)
    ensures IsTrimOf(r, s, c)
    ensures |r| > 0 ==> r[0] != c && r[|r| - 1] != c
  {
    TrimRight(TrimLeft(s, c), c)
  }

  lemma OccursHead(s: string, sep: string, j: int)
    requires |sep| > 0
    ensures OccursAt(s, sep, j) ==> s[j] == sep[0]
  {
    if OccursAt(s, sep, j) {
      assert s[j..j + |sep|][0] == s[j];
    }
  }

  /** Splitting on a separator whose first character occurs on neither side of its one
      occurrence gives exactly the two sides. */
  lemma SplitOnce(a: string, sep: string, b: string)
    requires |sep| > 0 && sep[0] !in a && sep[0] !in b
    ensures Split(a + sep + b, sep) == [a, b]
  {
    var s := a + sep + b;
    var e := |a| + |sep|;
    assert s[|a|..e] == sep;
    assert OccursAt(s, sep, |a|);
    forall j | 0 <= j < |a|
      ensures !OccursAt(s, sep, j)
    {
      assert s[j] == a[j];
      OccursHead(s, sep, j);
    }
    forall j | e <= j
      ensures !OccursAt(s, sep, j)
    {
      if j < |s| {
        assert s[j] == b[j - e];
      }
      OccursHead(s, sep, j);
    }
    assert IndexFrom(s, sep, 0) == Some(|a|);
    assert IndexFrom(s, sep, e) == None;
    assert s[0..|a|] == a;
    assert s[e..] == b;
  }

  /** `k` copies of `c`. */
  function Repeat(c: char, k: nat): (r: string)
    ensures |r| == k
  {
    if k == 0 then [] else [c] + Repeat(c, k - 1)
  }

  lemma {:induction false} TrimLeftRun(c: char, k: nat, t: string)
    requires |t| > 0 && t[0] != c
    ensures TrimLeft(Repeat(c, k) + t, c) == t
    decreases k
  {
    var s := Repeat(c, k) + t;
    if k > 0 {
      var u := Repeat(c, k - 1) + t;
      assert s == [c] + u;
      assert s[0] == c && s[1..] == u;
      TrimLeftRun(c, k - 1, t);
    } else {
      assert s == t;
    }
  }

  lemma {:induction false} TrimRightRun(c: char, t: string, k: nat)
    requires |t| > 0 && t[|t| - 1] != c
    ensures TrimRight(t + Repeat(c, k), c) == t
    decreases k
  {
    if k > 0 {
      var s := t + Repeat(c, k);
      RepeatLast(c, k);
      assert s[..|s| - 1] == t + Repeat(c, k - 1);
      TrimRightRun(c, t, k - 1);
    } else {
      assert t + Repeat(c, k) == t;
    }
  }

  lemma {:induction false} RepeatLast(c: char, k: nat)
    requires k > 0
    ensures Repeat(c, k) == Repeat(c, k - 1) + [c]
    decreases k
  {
    if k > 1 {
      RepeatLast(c, k - 1);
      assert Repeat(c, k) == [c] + (Repeat(c, k - 2) + [c]);
    }
  }

  /** `strings.Trim` removes a whole run of `c` at each end, not one character. */
  lemma TrimRuns(c: char, k1: nat, t: string, k2: nat)
    requires |t| > 0 && t[0] != c && t[|t| - 1] != c
    ensures Trim(Repeat(c, k1) + t + Repeat(c, k2), c) == t
  {
    var u := t + Repeat(c, k2);
    Assoc(Repeat(c, k1), t, Repeat(c, k2));
    TrimLeftRun(c, k1, u);
    TrimRightRun(c, t, k2);
  }

  lemma Assoc(a: string, b: string, d: string)
    ensures a + b + d == a + (b + d)
  {
  }
}

=== FILE: transport.dfy ===
/** The checks the JSON entry points make after the points have been decoded.

    Decoding JSON into a list of points is the library's work and is taken as given: each check
    receives the decoded list or the decoder's error. An error is passed on unchanged with the
    zero value of the shape; a list of the wrong length gives the shape's own error. */
module Transport {
  import opened Wrappers
  import opened Geometry

  function ZeroBox<N>(zero: N): Box<N>
  {
    Box(ZeroPoint(zero), ZeroPoint(zero))
  }

  function ZeroLseg<N>(zero: N): Lseg<N>
  {
    Lseg(ZeroPoint(zero), ZeroPoint(zero))
  }

  /** `UnmarshalBox`: exactly two points, kept in order. */
  function UnmarshalBox<N>(zero: N, decoded: Result<seq<Point<N>>, Error>): (r: Outcome<Box<N>>)
    ensures decoded.Failure? ==> r == Outcome(ZeroBox(zero), Some(decoded.error))
    ensures decoded.Success? && |decoded.value| != 2 ==> r == Outcome(ZeroBox(zero), Some(WrongBox))
    ensures r.err.None? <==> decoded.Success? && |decoded.value| == 2
    ensures r.err.None? ==> [r.value.first, r.value.second] == decoded.value
  {
    match decoded
    case Failure(e) => Outcome(ZeroBox(zero), Some(e))
    case Success(ps) =>
      if |ps| != 2 then Outcome(ZeroBox(zero), Some(WrongBox))
      else Outcome(Box(ps[0], ps[1]), None)
  }

  /** `UnmarshalPath`: at least two points, all kept; the path is closed exactly when its first
      and last points are equal. */
  function UnmarshalPath<N(==)>(decoded: Result<seq<Point<N>>, Error>): (r: Outcome<Path<N>>)
    ensures decoded.Failure? ==> r == Outcome(Path([], false), Some(decoded.error))
    ensures decoded.Success? && |decoded.value| < 2 ==> r == Outcome(Path([], false), Some(WrongPath))
    ensures r.err.None? <==> decoded.Success? && |decoded.value| >= 2
    ensures r.err.None? ==>
      r.value.points == decoded.value &&
      (r.value.closed <==> decoded.value[0] == decoded.value[|decoded.value| - 1])
  {
    match decoded
    case Failure(e) => Outcome(Path([], false), Some(e))
    case Success(ps) =>
      if |ps| < 2 then Outcome(Path([], false), Some(WrongPath))
      else Outcome(Path(ps, ps[0] == ps[|ps| - 1]), None)
  }

  /** `UnmarshalPolygon`: at least three points, all kept. */
  function UnmarshalPolygon<N>(decoded: Result<seq<Point<N>>, Error>): (r: Outcome<Polygon<N>>)
    ensures decoded.Failure? ==> r == Outcome(Polygon([]), Some(decoded.error))
    ensures decoded.Success? && |decoded.value| < 3 ==> r == Outcome(Polygon([]), Some(WrongPolygon))
    ensures r.err.None? <==> decoded.Success? && |decoded.value| >= 3
    ensures r.err.None? ==> r.value.points == decoded.value
  {
    match decoded
    case Failure(e) => Outcome(Polygon([]), Some(e))
    case Success(ps) =>
      if |ps| < 3 then Outcome(Polygon([]), Some(WrongPolygon))
      else Outcome(Polygon(ps), None)
  }

  /** `UnmarshalLseg`: exactly two points, kept in order. */
  function UnmarshalLseg<N>(zero: N, decoded: Result<seq<Point<N>>, Error>): (r: Outcome<Lseg<N>>)
    ensures decoded.Failure? ==> r == Outcome(ZeroLseg(zero), Some(decoded.error))
    ensures decoded.Success? && |decoded.value| != 2 ==> r == Outcome(ZeroLseg(zero), Some(WrongLseg))
    ensures r.err.None? <==> decoded.Success? && |decoded.value| == 2
    ensures r.err.None? ==> [r.value.first, r.value.second] == decoded.value
  {
    match decoded
    case Failure(e) => Outcome(ZeroLseg(zero), Some(e))
    case Success(ps) =>
      if |ps| != 2 then Outcome(ZeroLseg(zero), Some(WrongLseg))
      else Outcome(Lseg(ps[0], ps[1]), None)
  }

  /** The closed flag on the two example paths: `[(0,0),(1,1),(0,0)]` is closed and
      `[(0,0),(1,1),(2,2)]` is not. */
  lemma ClosedPathExamples<N>(zero: N, one: N, two: N)
    requires zero != one && zero != two
    ensures var o := Point(zero, zero);
      UnmarshalPath(Success([o, Point(one, one), o])) == Outcome(Path([o, Point(one, one), o], true), None)
    ensures var o := Point(zero, zero);
      var ps := [o, Point(one, one), Point(two, two)];
      UnmarshalPath(Success(ps)) == Outcome(Path(ps, false), None)
  {
  }

  /** The cardinality examples: one point is neither a box nor a path, two points are not a
      polygon, and three points are not a segment. */
  lemma CardinalityExamples<N>(zero: N, p: Point<N>)
    ensures UnmarshalBox(zero, Success([p])).err == Some(WrongBox)
    ensures UnmarshalPath(Success([p])).err == Some(WrongPath)
    ensures UnmarshalPolygon(Success([p, p])).err == Some(WrongPolygon)
    ensures UnmarshalLseg(zero, Success([p, p, p])).err == Some(WrongLseg)
  {
  }
}

=== FILE: wrappers.dfy ===
/** Failure-carrying values shared by every part of the codec. */
module Wrappers {

  /** An optional value: Go's nil-able results and "no match" outcomes. */
  datatype Option<+T> = None | Some(value: T)

  /** A value or an error, for Go functions whose value is meaningless on error. */
  datatype Result<+T, +E> = Success(value: T) | Failure(error: E)
}
